=== FILE: README.md ===
# depsmanager core in Dafny

A model of the core of depsmanager, a Go service that takes an npm package
version and does three things:

- it asks a package-metadata service for the version's dependency graph;
- it resolves each dependency to its source repository and fetches that
  repository's scorecard;
- it stores the scored dependencies per (project, version) in SQLite.

When the same project version is ingested again, the stored list is
*reconciled* with the incoming list by a tolerance diff (scores are equal
within 1e-9). Rows that did not change are kept, and only the differences
are deleted and inserted.

The model has three parts:

- **Diff** (`diff.dfy`). `DiffDependencies` is modelled twice:
  - as the pure `Diff.Diff`, over the last-write-wins lookup `LastNamed`;
  - as the method `Diff.DiffDependencies`, which builds the map and
    filters as the Go code does, and is proved equal to the pure version.

  The tolerance equality `EqualDep` is shown to be reflexive and symmetric
  but not transitive.
- **Persistence** (`storage.dfy`, `storage_facts.dfy`). The database is a
  value `Store`. It holds:
  - the `projects` rows in rowid order;
  - the `dependency` rows in rowid order;
  - the next AUTOINCREMENT id.

  A project's dependencies are read back in name order, the order of the
  `UNIQUE(project_id, dependency_name)` index that answers
  `WHERE project_id = ?`.

  `Storage.Valid` is the schema:
  - ids are below the counter;
  - `UNIQUE(name, version)`;
  - the foreign key;
  - `UNIQUE(project_id, dependency_name)`.

  Every operation that writes returns `Result<Store>`, where an error
  means the transaction rolled back, and is proved to preserve `Valid`.
  The reads return the listing itself. They wrap it in a `Result` only
  where the source has an error that depends on the data (an unknown
  project, or no project with the dependency); their other errors come
  from SQL failures, which are not modelled.
  `StorageFacts` relates the operations through the read side
  (`ListProjects`, `ListProjectDependencies`): what an ingestion, a
  reconciliation, a delete or an add/delete pair does to what a later
  read returns.
- **Ingestion** (`remote.dfy`, `service.dfy`).
  - Each call to the metadata service is an input `Response`: a decoded
    body, a 404 (`ErrProjectNotFound`) or any other failure.
  - `Service.Gather` is the pure pipeline. It covers the deduplication of
    graph nodes, the first `SOURCE_REPO` per package, the repository
    map, and the emission of scored dependencies. It also records which
    batch requests were issued.
  - `Service.FetchAndStoreProjectDependencies` feeds the result into
    `Storage.StoreDependencies`.

Supporting modules are `Domain` (entities, errors, `Result`), `Seqs` (an
order-preserving filter) and `Order`. `Order` holds the byte-wise string
order that SQLite's `ORDER BY` uses on TEXT, plus insertion sorts that are
proved to produce sorted permutations.

Two points where the code's behaviour is narrower than its names
suggest:

- `DiffDependencies` is order-independent only in *membership*. Each
  output keeps the order of its own input. `Diff.OnlyInPermuteSelf` and
  `Diff.OnlyInPermuteOther` state the exact sense in which order does not
  matter.
- `AddDependency` never reports `ErrDependencyAlreadyExists` for a
  duplicate: see "## Findings".

## Model

| member | source | states |
|---|---|---|
| Diff.EqualDepMeaning | depsmanager-backend/pkg/diff/diff.go:34-43 | two dependencies are equal iff names match, scores are within 1e-9 inclusive and timestamps match; the relation is symmetric and reflexive |
| Diff.ToleranceExamples | depsmanager-backend/pkg/diff/diff_test.go:72-100 | scores 5e-10 apart count as equal; scores 1e-5 apart do not |
| Diff.EqualDepNotTransitive | depsmanager-backend/pkg/diff/diff.go:40-43 | three scores 6e-10 apart: the first equals the second and the second the third, but not the first the third |
| Diff.LastNamed | depsmanager-backend/pkg/diff/diff.go:9-12 | the `inB` map lookup: none iff no entry has the name; otherwise the entry with that name that no later entry overrides |
| Diff.DiffDependencies | depsmanager-backend/pkg/diff/diff.go:8-32 | the map-and-filter method computes the pure diff; `onlyA` holds exactly the entries of `a` with no tolerance-equal same-named entry in `b`, and symmetrically for `onlyB` |
| Diff.BuildIndex | depsmanager-backend/pkg/diff/diff.go:9-12 | the map built by the loop answers every name exactly as the last-write-wins lookup does |
| Diff.Select | depsmanager-backend/pkg/diff/diff.go:14-29 | the filter loop over one side keeps exactly the unmatched entries, in input order |
| Diff.OnlyInMembers | depsmanager-backend/pkg/diff/diff.go:14-18 | membership of a one-sided result: in the input and unmatched in the other side |
| Diff.OnlyInConcat | depsmanager-backend/pkg/diff/diff.go:14-18 | the one-sided filter distributes over concatenation, so output order follows input order |
| Diff.OnlyInMultiset | depsmanager-backend/pkg/diff/diff.go:14-18 | each value keeps its full multiplicity when it is unmatched, and disappears otherwise |
| Diff.OnlyInPermuteSelf | depsmanager-backend/pkg/diff/diff_test.go:36-51 | permuting a side permutes its result; the content does not depend on the side's order |
| Diff.OnlyInPermuteOther | depsmanager-backend/pkg/diff/diff_test.go:36-51 | with unique names in the other side, permuting it leaves the result unchanged |
| Diff.LookupUnique | depsmanager-backend/pkg/diff/diff.go:9-12 | with unique names, the lookup of an entry's name finds that entry |
| Diff.UnmatchedUnique | depsmanager-backend/pkg/diff/diff.go:14-18 | with unique names, an entry is unmatched iff no entry of the other side is tolerance-equal to it |
| Diff.DiffSelf | depsmanager-backend/pkg/diff/diff_test.go:21-34 | a list with unique names has an empty diff against itself |
| Diff.SelfMatched | depsmanager-backend/pkg/diff/diff.go:14-18 | every entry drawn from a unique-named list is matched by that list |
| Diff.DiffSelfDuplicate | depsmanager-backend/pkg/diff/diff.go:9-12 | with a repeated name the last entry shadows the first, so a list is not diff-equal to itself |
| Diff.UniquePermutation | depsmanager-backend/pkg/diff/diff.go:8-32 | a permutation of a unique-named list has unique names |
| Diff.DiffPermuted | depsmanager-backend/pkg/diff/diff_test.go:36-51 | a unique-named list and any permutation of it have an empty diff |
| Diff.DiffDisjoint | depsmanager-backend/pkg/diff/diff_test.go:53-70 | with no names in common the diff returns both inputs unchanged |
| Diff.OnlyInNoneMatched | depsmanager-backend/pkg/diff/diff.go:14-18 | with no names in common the one-sided filter keeps everything |
| Diff.DiffMismatch | depsmanager-backend/pkg/diff/diff_test.go:85-123 | a same-named pair outside the tolerance appears on both sides, once each, and no other version of that name appears |
| Diff.OnlyInUnique | depsmanager-backend/pkg/diff/diff.go:14-18 | filtering keeps names unique |
| Diff.NoneUnmatched | depsmanager-backend/pkg/diff/diff.go:14-18 | when every entry is matched the one-sided result is empty |
| Diff.DiffEmptyWhenMatched | depsmanager-backend/storage/storage.go:135-143 | when both sides have unique names and each side is tolerance-matched by the other, the diff is empty, which is the no-change branch of `UpdateProject` |
| Order.StrLessIrreflexive | depsmanager-backend/storage/storage.go:251-258 | the byte-wise string order used by `ORDER BY` is irreflexive |
| Order.StrLessTransitive | depsmanager-backend/storage/storage.go:251-258 | the string order is transitive |
| Order.StrLessTotal | depsmanager-backend/storage/storage.go:251-258 | any two distinct strings are ordered one way or the other |
| Order.StrLessAsymmetric | depsmanager-backend/storage/storage.go:251-258 | the string order is asymmetric |
| Order.InsertDistinct | depsmanager-backend/storage/storage.go:285-291 | inserting into a strictly increasing list keeps it strictly increasing and adds exactly the new name |
| Order.SortDistinct | depsmanager-backend/storage/storage.go:285-291 | `SELECT DISTINCT … ORDER BY name`: strictly increasing, with the same members as the input |
| Order.StrictlyIncreasingUnique | depsmanager-backend/storage/storage.go:285-291 | two strictly increasing lists with the same members are equal, so the query result is determined |
| Order.ProjectLessTransitive | depsmanager-backend/storage/storage.go:257 | `ORDER BY p.name, p.version` is transitive |
| Order.ProjectLessTotal | depsmanager-backend/storage/storage.go:257 | any two projects with different keys are ordered |
| Order.ProjectLessAsymmetric | depsmanager-backend/storage/storage.go:257 | the project order is asymmetric |
| Order.InsertProject | depsmanager-backend/storage/storage.go:257 | insertion keeps the list sorted and adds exactly one copy of the project |
| Order.InsertByName | depsmanager-backend/storage/storage.go:476 | inserting into a name-sorted list keeps it name-sorted and adds exactly one copy of the entry |
| Order.SortByName | depsmanager-backend/storage/storage.go:209 | reading a project's rows through the `(project_id, dependency_name)` index gives them name-sorted, as a permutation of the rows |
| Order.NamesSortedUnique | depsmanager-backend/storage/storage.go:209 | with unique names, two name-sorted lists with the same entries are equal, so the index read is fully determined by the rows |
| Order.SortProjects | depsmanager-backend/storage/storage.go:257 | the sort result is sorted and a permutation of its input |
| Seqs.Filter | depsmanager-backend/storage/storage.go:254-256 | a `WHERE` over rows in rowid order keeps exactly the rows that satisfy it, in order |
| Seqs.FilterConcat | depsmanager-backend/storage/storage.go:254-256 | filtering distributes over concatenation |
| Seqs.FilterPairwise | depsmanager-backend/storage/storage.go:254-256 | any pairwise relation between the rows survives filtering |
| Seqs.FilterKeepsAll | depsmanager-backend/storage/storage.go:254-256 | a condition every row meets removes nothing |
| Seqs.DistinctPermutation | depsmanager-backend/storage/storage.go:253 | a permutation of a list without repeats has no repeats |
| Remote.AsResult | depsmanager-backend/clients/depsclient.go:48-72 | a client call succeeds iff the response was decoded; the error is `ErrProjectNotFound` iff the status was 404 |
| Storage.ProjectId | depsmanager-backend/storage/storage.go:429-455 | `getProjectID`: none iff no project row has that name and version; otherwise the id of such a row |
| Storage.InsertDependencies | depsmanager-backend/storage/storage.go:72-83 | the insert loop succeeds iff the names are unique and none is already stored for the project; success appends one row per dependency in order; failure is the `UNIQUE` violation of a named dependency |
| Storage.ToRowsHasName | depsmanager-backend/storage/storage.go:72-83 | the inserted rows hold a name iff the record does |
| Storage.DeleteDependenciesFromProject | depsmanager-backend/storage/storage.go:418-427 | deleting one name at a time removes exactly the project's rows whose name is in the deleted set |
| Storage.KeepRowsTwice | depsmanager-backend/storage/storage.go:418-427 | two successive deletions equal one deletion of the union |
| Storage.StoreDependencies | depsmanager-backend/storage/storage.go:36-90 | preserves the schema invariants; for a new (name, version) it succeeds iff the incoming names are unique |
| Storage.FreshIdHasNoRows | depsmanager-backend/storage/storage.go:460 | under the schema no dependency row refers to the next AUTOINCREMENT id |
| Storage.NewProjectValid | depsmanager-backend/storage/storage.go:45-83 | inserting a new project row and its dependency rows keeps every constraint |
| Storage.UpdateProject | depsmanager-backend/storage/storage.go:92-170 | fails with `ErrProjectNotFound` when the project is absent; preserves the schema invariants; when the diff is empty on both sides, for any incoming list and timestamp, the result is the store with only that project's timestamp changed |
| Storage.TouchValid | depsmanager-backend/storage/storage.go:127-132 | updating `updated_at` keeps the constraints and every project id |
| Storage.ReplaceRowsValid | depsmanager-backend/storage/storage.go:146-162 | delete-then-insert of names not left behind keeps every constraint |
| Storage.KeepRowsUnique | depsmanager-backend/storage/storage.go:418-427 | deleting rows keeps `UNIQUE(project_id, dependency_name)`, and exactly the rows outside the deleted set survive |
| Storage.DeleteProject | depsmanager-backend/storage/storage.go:172-201 | fails with `ErrProjectNotFound` iff the project is absent; the cascade keeps the schema invariants |
| Storage.ListProjectDependencies | depsmanager-backend/storage/storage.go:203-228 | fails with `ErrProjectNotFound` iff the project is absent; otherwise lists exactly the project's rows (as a multiset), in name order; a listing has unique names |
| Storage.RowsOfUnique | depsmanager-backend/storage/storage.go:476 | one project's rows have unique names under the table constraint |
| Storage.RowsOfSource | depsmanager-backend/storage/storage.go:209-225 | every listed dependency comes from a row of that project |
| Storage.GetProjectsByDependency | depsmanager-backend/storage/storage.go:251-280 | `ErrProjectNotFound` iff no project has a row with that name; otherwise sorted by (name, version), holding exactly the projects with such a row, without repeats |
| Storage.ProjectsWithMembers | depsmanager-backend/storage/storage.go:252-256 | the join of `projects` with `dependency` on the name keeps exactly the projects that own a row with that name |
| Storage.GetDependenciesByExactScore | depsmanager-backend/storage/storage.go:282-309 | strictly increasing names; a name is listed iff some row with that name has a score within 1e-9, inclusive |
| Storage.NamesNearScoreMembers | depsmanager-backend/storage/storage.go:287-293 | the `BETWEEN` filter keeps exactly the names of rows with a score in range |
| Storage.AddDependencyAsWritten | depsmanager-backend/storage/storage.go:311-344 | as written: absent project gives `ErrProjectNotFound`; for an existing project it fails iff the row exists; no failure is ever `ErrDependencyAlreadyExists`; a success equals the corrected `AddDependency` and preserves the schema invariants |
| Storage.AddDependency | depsmanager-backend/storage/storage.go:311-344 | absent project gives `ErrProjectNotFound`; fails iff the name is already stored, then with `ErrDependencyAlreadyExists`; success appends exactly one row and keeps the constraints |
| Storage.DeleteDependency | depsmanager-backend/storage/storage.go:346-377 | absent project gives `ErrProjectNotFound`; absent row gives `ErrDependencyNotFound`; otherwise exactly that row is removed |
| Storage.UpdateDependency | depsmanager-backend/storage/storage.go:379-412 | absent project gives `ErrProjectNotFound`; absent row gives `ErrDependencyNotFound`; otherwise only the matching row changes score and timestamp; constraints kept |
| StorageFacts.KeepNamesMembers | depsmanager-backend/storage/storage.go:418-427 | the names filter keeps exactly the entries whose name is not deleted |
| StorageFacts.KeepNamesUnique | depsmanager-backend/storage/storage.go:418-427 | filtering keeps names unique |
| StorageFacts.KeepNamesConcat | depsmanager-backend/storage/storage.go:418-427 | the names filter distributes over concatenation |
| StorageFacts.KeepNamesNone | depsmanager-backend/storage/storage.go:137-143 | deleting no names changes nothing |
| StorageFacts.KeepRowsNone | depsmanager-backend/storage/storage.go:418-427 | deleting names that have no rows changes nothing |
| StorageFacts.UniqueConcat | depsmanager-backend/storage/storage.go:476 | two unique lists with disjoint names concatenate to a unique list |
| StorageFacts.KeptMeaning | depsmanager-backend/storage/storage.go:135-148 | after reconciliation a stored entry survives iff the incoming list has a tolerance-equal entry |
| StorageFacts.ReconcileApplicable | depsmanager-backend/storage/storage.go:146-162 | no name inserted by the reconciliation is still stored, so the inserts cannot violate the constraint |
| StorageFacts.UpdateReadOrder | depsmanager-backend/storage/storage.go:108-143 | with unique stored names, the order `UpdateProject` reads the current rows in changes neither the inserts, nor the deleted names, nor the no-change test |
| StorageFacts.ReconciledReordered | depsmanager-backend/storage/storage.go:108-162 | reconciling any permutation of the stored list lists the same result in name order |
| StorageFacts.SortKeepNames | depsmanager-backend/storage/storage.go:209 | deleting names and then reading in name order equals reading in name order and then deleting them |
| StorageFacts.ReconciledMeaning | depsmanager-backend/storage/storage.go:135-162 | the reconciled list has unique names and the same name set as the incoming list; each entry is incoming or a tolerance-equal stored one; every tolerance-equal stored entry is kept; its diff against the incoming list is empty |
| StorageFacts.RowsOfKeep | depsmanager-backend/storage/storage.go:418-427 | deleting names from one project's rows changes only that project's listing, by the names filter |
| StorageFacts.RowsOfDrop | depsmanager-backend/storage/storage.go:475 | the cascade empties exactly the deleted project's listing |
| StorageFacts.HasRowRowsOf | depsmanager-backend/storage/storage.go:203-228 | a project has a row with a name iff its listing has that name |
| StorageFacts.ProjectIdAt | depsmanager-backend/storage/storage.go:429-441 | under `UNIQUE(name, version)` the lookup finds each row's own id |
| StorageFacts.ProjectIdKeys | depsmanager-backend/storage/storage.go:464 | under `UNIQUE(name, version)` two keys with the same id are the same key |
| StorageFacts.ProjectIdTouch | depsmanager-backend/storage/storage.go:127-132 | a timestamp update does not move any project id |
| Storage.ListProjects | depsmanager-backend/storage/storage.go:230-250 | every project row as (name, version, updatedAt), in rowid order; a (name, version) is listed iff the id lookup the other operations use finds it, so no listed version gives `ErrProjectNotFound`; under `UNIQUE(name, version)` no pair is listed twice |
| StorageFacts.ListProjectsMembers | depsmanager-backend/storage/storage.go:230-250 | the listed projects are exactly the stored rows, read as name, version and timestamp |
| StorageFacts.StoreNewProject | depsmanager-backend/storage/storage_test.go:41-117 | storing a new version appends it to the project list, lists exactly its given dependencies in name order, and leaves every other listing unchanged |
| StorageFacts.ReconcileExisting | depsmanager-backend/storage/storage_test.go:119-154 | for a valid store and an incoming list with unique names, storing an existing version succeeds, keeps every id, only touches its timestamp, lists the reconciliation of its previous listing with the incoming list in name order, and leaves every other listing unchanged |
| StorageFacts.EmptyDiffOnlyTouches | depsmanager-backend/storage/storage.go:127-143 | a record whose list diffs empty against the stored one, whatever its timestamp and even with repeated names, changes only that project's timestamp: every listing reads as before and the project list differs only in that version's `updatedAt` |
| StorageFacts.StoreAgainNoop | depsmanager-backend/storage/storage.go:135-143 | a record whose list diffs empty against the stored one, with an unchanged timestamp, leaves the store exactly as it is |
| StorageFacts.StoreIdempotent | depsmanager-backend/storage/storage.go:56-65 | storing the same record twice has the same effect as storing it once |
| StorageFacts.DeleteProjectEffect | depsmanager-backend/storage/storage_test.go:156-189 | deleting one version makes its listing fail, leaves every other listing unchanged, and removes exactly that project from the list |
| StorageFacts.DeleteDependencyEffect | depsmanager-backend/storage/storage.go:346-377 | the project's listing loses exactly that name; other listings are unchanged |
| StorageFacts.AddThenDelete | depsmanager-backend/storage/storage.go:311-377 | deleting a dependency just added restores the store exactly |
| StorageFacts.UpdateThenRestore | depsmanager-backend/storage/storage.go:379-412 | updating a row and then updating it back to its old values restores the store exactly |
| StorageFacts.AddDuplicateAsWritten | depsmanager-backend/storage/storage.go:324-338 | for an existing row the code as written fails with the wrapped `UNIQUE` violation and never `ErrDependencyAlreadyExists`; the corrected operation fails with `ErrDependencyAlreadyExists` |
| StorageFacts.AddDuplicateExample | depsmanager-backend/storage/storage.go:324-338 | a concrete valid store where the two versions differ |
| Service.FirstIndices | depsmanager-backend/service/service.go:67-84 | the indices the dedup loop appends: each is a first non-`SELF` occurrence of its key, all of them are present, in increasing order |
| Service.CollectRequests | depsmanager-backend/service/service.go:67-84 | the loop with its `seen` set builds exactly the request list of the first occurrences |
| Service.RequestsMeaning | depsmanager-backend/service/service.go:67-84 | requested keys are pairwise distinct, each is a first occurrence, and every non-`SELF` node is covered by an earlier or equal first occurrence |
| Service.FirstOccurrence | depsmanager-backend/service/service.go:74-78 | every non-`SELF` node has a first occurrence of its key at or before it |
| Service.KeyCollision | depsmanager-backend/service/service.go:74 | the key is `system + name` with no separator, so `npm`/`react` and `npmr`/`eact` collide and the second is dropped |
| Service.FirstSourceRepo | depsmanager-backend/service/service.go:101-106 | none iff no related project is `SOURCE_REPO`; otherwise the id of the first one |
| Service.RepoNames | depsmanager-backend/service/service.go:99-107 | a repository id is a key iff some package names it as its first source repository; its value is those package names in response order |
| Service.RepoNamesEmpty | depsmanager-backend/service/service.go:108 | the map is empty iff no response has a `SOURCE_REPO` |
| Service.Emit | depsmanager-backend/service/service.go:126-144 | a single response emits its mapped names with its score and date, or nothing when its id is not mapped; responses with no mapped id emit nothing |
| Service.EmitConcat | depsmanager-backend/service/service.go:126-144 | responses are handled in order: the emission for two batches is the first's followed by the second's |
| Service.EmittedScored | depsmanager-backend/service/service.go:98-144 | the emitted list holds exactly the names of version responses paired with the score and date of their first source repository's projects response |
| Service.EmitMeaning | depsmanager-backend/service/service.go:126-144 | a dependency is emitted iff some project response has a mapped id, one of its package names, its overall score and its date (zero date gives 0) |
| Service.Gather | depsmanager-backend/service/service.go:61-144 | graph failure gives the client error and no batch call (no versions request, and no projects request without a versions request); a graph with no non-`SELF` node gives no request and an empty list; the versions batch is sent iff some non-`SELF` key exists, with exactly the deduplicated keys; the projects batch is sent iff the repository map is non-empty, with exactly its keys; batch errors pass through; otherwise the emitted list; every early exit stores an empty list |
| Service.NoDependencies | depsmanager-backend/service/service_test.go:99-113 | a graph of only `SELF` nodes makes no batch call and stores an empty list, whatever the batches would answer |
| Service.OnlyRoot | depsmanager-backend/service/service.go:69-72 | `SELF` nodes are never requested |
| Service.NoSourceRepository | depsmanager-backend/service/service_test.go:132-151 | when no package has a `SOURCE_REPO`, the projects batch is not called and an empty list is stored |
| Service.StoredDependencies | depsmanager-backend/service/service_test.go:174-219 | on the full path the stored list holds exactly the dependencies scored from a projects response for a package whose first source repository is that response's id |
| Service.NamesForSource | depsmanager-backend/service/service.go:99-107 | a mapped package name comes from a response whose first source repository is the id |
| Service.NamesForHas | depsmanager-backend/service/service.go:99-107 | every such response's package name is mapped |
| Service.StoreProjectWithDependencies | depsmanager-backend/service/service.go:198-211 | succeeds iff the storage call does, with its result; a storage error is wrapped with the storage error as its cause |
| Service.FetchAndStoreProjectDependencies | depsmanager-backend/service/service.go:61-151 | a pipeline error is returned as is; otherwise it succeeds iff storing the gathered list, stamped with the clock, does; a success is exactly that store, and a failure wraps the storage error twice; the schema invariants are preserved |
| Service.GraphFailure | depsmanager-backend/service/service_test.go:86-97 | a failed graph call fails the ingestion, with `ErrProjectNotFound` in the chain iff it was a 404 |
| Service.IngestExistingVersion | depsmanager-backend/service/service.go:61-151 | re-ingesting a stored version with unique gathered names succeeds, keeps every project id, lists the reconciliation of the stored and gathered dependencies in name order, and leaves every other listing unchanged |
| Service.IngestNewVersion | depsmanager-backend/service/service.go:61-151 | ingesting a new version with unique gathered names appends the project and lists exactly the gathered dependencies in name order |
| Service.ListProjectVersions | depsmanager-backend/service/service.go:177-188 | succeeds iff the lookup is decoded, listing the versions in order; a 404 gives `ErrProjectNotFound` in the chain |

## Left out

- HTTP transport, JSON decoding and status handling of the metadata
  client are left out. Each call is an input `Response`. A decoding
  failure is a `Failure`.
- SQL mechanics are left out: drivers, statements, scanning, context
  cancellation and the `rows.Err()`/`Scan` failure paths. Only the
  outcomes that depend on the data are modelled.
- Transactions are modelled as all-or-nothing: an `Err` result means the
  store is unchanged.
- Concurrency is left out: SQLite locking, the busy timeout and
  interleaved requests.
- The HTTP API (`service/api.go`), the error-to-status mapping
  (`pkg/errors`) and the server wiring are left out. They translate
  errors but compute nothing about the data. Note that the mapping has no
  case for conflict errors, so even a correct `ErrDependencyAlreadyExists`
  would be reported as 500 (`pkg/errors/error_handler.go:38-61`).
- The service methods `ListDependencies`, `DeleteProject`, `ListProjects`,
  `GetDependenciesByExactScore` and `GetProjectsByDependency`
  (`service/service.go:153-196`) are left out. They only delegate to
  storage and wrap the error.
- Clock: `now` is a parameter in place of `s.tNow()`.
- Error messages: `Wrapped(context, cause)` keeps a short context string
  and the cause. The formatted text is not reproduced, so only the error
  chain (`Is`) is meaningful.
- Integers are unbounded. Ids and Unix timestamps are `int64` in the
  source, and their wrap-around is not modelled.
- Scores are `real`, not `float64`. The rounding of `score ± 1e-9` and of
  the tolerance comparison is not modelled, so the result at a bound may
  differ by one ulp.
- `Service.Gather`: the projects request is modelled as a set because
  Go's map iteration order is unspecified. The request's order is
  therefore not modelled, and nothing depends on it.
- `Service.EmitMeaning`: the scorecard date is `None` for Go's zero
  `time.Time`, which gives 0. The Unix value of any other date is taken
  as given.
- `Storage.StoreDependencies`: with duplicate incoming names on an
  existing project, success depends on the stored rows. The update path
  is only proved to keep the invariants and to reconcile unique-named
  lists (`StorageFacts.ReconcileExisting`). It is not characterised for
  duplicate names.
- `Storage.ListProjectDependencies`: the `SELECT` at
  `storage/storage.go:209` has no `ORDER BY`, so SQL does not promise an
  order. The model returns the rows in name order, the order of the
  `UNIQUE(project_id, dependency_name)` index (`storage/storage.go:476`)
  that SQLite's planner uses for `WHERE project_id = ?`. This reading of
  the planner is a modelling choice; with statistics or a different
  plan the order could differ. The exact listings stated by
  `StorageFacts.StoreNewProject`, `StorageFacts.ReconcileExisting`,
  `StorageFacts.DeleteDependencyEffect`, `Service.IngestNewVersion` and
  `Service.IngestExistingVersion` rest on it; their contents (as
  multisets) do not.
- `Storage.UpdateProject`: the current rows are read by the same
  unordered query (`storage/storage.go:108`), but the model reads them
  in rowid order. `StorageFacts.UpdateReadOrder` shows that, with unique
  stored names, the read order changes neither the inserts, nor the
  deleted names, nor the no-change test.
- `Storage.ListProjects`: the `SELECT` at `storage/storage.go:231` has no
  `ORDER BY` and no `WHERE`, and no index covers all its columns, so the
  model lists the projects in rowid order, the order of a table scan.
- The Go `Dependency` struct's `ProjectID` field is not modelled. The
  core never reads it: it is excluded from JSON and never scanned, and
  the owning project is the row's `projectId` in `Storage.DependencyRow`.
- `Storage.UpdateProject`: the order in which the diff's inserts fail is
  not modelled beyond "some duplicate name".
- `NewStorage` and `Close` only open and close the connection, so they
  are left out. The tables that `createTable` declares are the invariant
  `Storage.Valid`, and `Storage.Empty` is a freshly created database.
  `getProjectID` and `getProjectIDTX` run the same query, so both are
  `Storage.ProjectId`.

## Findings

| source | as written | input that shows it | evidently intended | confidence | as-written member | corrected member |
|---|---|---|---|---|---|---|
| depsmanager-backend/storage/storage.go:324-338 | a plain `INSERT` of an existing (project, name) fails on `UNIQUE(project_id, dependency_name)` and returns the wrapped constraint error, so the `aff == 0` check that returns `ErrDependencyAlreadyExists` can never run | project react 18.2.0 with a stored row loose-envify, then `AddDependency` of loose-envify again (`StorageFacts.AddDuplicateExample`); `StorageFacts.AddDuplicateAsWritten` shows the discrepancy for every existing row | a duplicate reports `ErrDependencyAlreadyExists` (for example with `INSERT OR IGNORE`) | not executed | Storage.AddDependencyAsWritten | Storage.AddDependency |

=== FILE: diff.dfy ===
/** The dependency diff of pkg/diff: which entries of one list have no
    tolerance-equal counterpart, looked up by name, in the other list.

    The lookup goes through a name-keyed map that is filled in list order, so
    when a list repeats a name, the lookup sees that name's LAST entry. The
    reference definitions below (`LastNamed`, `Unmatched`, `OnlyIn`) state
    this positionally; `DiffDependencies` is the map-and-loop algorithm and
    is proved to compute them.
 */
module Diff {
  import opened Domain
  import Seqs

  /** Absolute tolerance of floatEq (1e-9). */
  const Eps: real := 0.000000001

  function Abs(x: real): real
  {
    if x < 0.0 then -x else x
  }

  predicate FloatEq(a: real, b: real)
  {
    Abs(a - b) <= Eps
  }

  /** equalDep: same name, scores within the tolerance, same timestamp. */
  predicate EqualDep(a: Dependency, b: Dependency)
  {
    a.name == b.name && FloatEq(a.score, b.score) && a.updatedAt == b.updatedAt
  }

  lemma EqualDepMeaning(a: Dependency, b: Dependency)
    ensures EqualDep(a, b) <==>
      (a.name == b.name && b.score - Eps <= a.score <= b.score + Eps && a.updatedAt == b.updatedAt)
    ensures EqualDep(a, b) <==> EqualDep(b, a)
    ensures EqualDep(a, a)
  {
  }

  /** The two tolerance cases of the diff tests. */
  lemma ToleranceExamples()
    ensures EqualDep(Dependency(1.0000000005, "x", 100), Dependency(1.0000000004, "x", 100))
    ensures !EqualDep(Dependency(1.0, "x", 100), Dependency(1.00001, "x", 100))
  {
  }

  /** Tolerance equality is not transitive, so it is not an equivalence. */
  lemma EqualDepNotTransitive()
    ensures var a, b, c := Dependency(1.0, "x", 0), Dependency(1.0000000006, "x", 0), Dependency(1.0000000012, "x", 0);
      EqualDep(a, b) && EqualDep(b, c) && !EqualDep(a, c)
  {
  }

  // ---------------------------------------------------------------------
  // Reference definitions

  /** The entry named `name` that a last-write-wins index of `s` holds. */
  function LastNamed(s: seq<Dependency>, name: string): (r: Option<Dependency>)
    ensures r.None? <==> forall i :: 0 <= i < |s| ==> s[i].name != name
    ensures r.Some? ==> exists j :: 0 <= j < |s| && s[j] == r.value && s[j].name == name &&
                                   forall k :: j < k < |s| ==> s[k].name != name
  {
    if |s| == 0 then None
    else if s[|s|-1].name == name then Some(s[|s|-1])
    else
      var t := s[..|s|-1];
      var r := LastNamed(t, name);
      assert forall i :: 0 <= i < |t| ==> t[i] == s[i];
      assert r.Some? ==> exists j :: 0 <= j < |s| && s[j] == r.value && s[j].name == name &&
                                   forall k :: j < k < |s| ==> s[k].name != name by {
        if r.Some? {
          var j :| 0 <= j < |t| && t[j] == r.value && t[j].name == name && forall k :: j < k < |t| ==> t[k].name != name;
          forall k | j < k < |s| ensures s[k].name != name {
            if k < |t| { assert s[k] == t[k]; }
          }
          assert s[j] == t[j];
        }
      }
      r
  }

  /** `d` belongs to its side's "only" output: the other side has no entry of
      its name, or the looked-up entry is not tolerance-equal to it. */
  predicate Unmatched(d: Dependency, other: seq<Dependency>)
  {
    match LastNamed(other, d.name)
    case None => true
    case Some(x) => !EqualDep(d, x)
  }

  /** The entries of `a`, in `a`'s order, that are unmatched in `other`. */
  function OnlyIn(a: seq<Dependency>, other: seq<Dependency>): seq<Dependency>
  {
    if |a| == 0 then []
    else OnlyIn(a[..|a|-1], other) + (if Unmatched(a[|a|-1], other) then [a[|a|-1]] else [])
  }

  /** DiffDependencies(a, b) = (onlyA, onlyB). */
  function Diff(a: seq<Dependency>, b: seq<Dependency>): (seq<Dependency>, seq<Dependency>)
  {
    (OnlyIn(a, b), OnlyIn(b, a))
  }

  // ---------------------------------------------------------------------
  // The algorithm

  /** The `inX` map: every entry of `s` stored under its name, in order. */
  method BuildIndex(s: seq<Dependency>) returns (m: map<string, Dependency>)
    ensures forall n :: LastNamed(s, n) == (if n in m then Some(m[n]) else None)
  {
    m := map[];
    var i := 0;
    while i < |s|
      invariant 0 <= i <= |s|
      invariant forall n :: LastNamed(s[..i], n) == (if n in m then Some(m[n]) else None)
    {
      assert s[..i+1][..i] == s[..i];
      m := m[s[i].name := s[i]];
      i := i + 1;
    }
    assert s[..i] == s;
  }

  /** The entries of `a` whose name is missing from `other`'s index or whose
      indexed entry is not tolerance-equal. */
  method Select(a: seq<Dependency>, index: map<string, Dependency>, ghost other: seq<Dependency>)
    returns (only: seq<Dependency>)
    requires forall n :: LastNamed(other, n) == (if n in index then Some(index[n]) else None)
    ensures only == OnlyIn(a, other)
  {
    only := [];
    var i := 0;
    while i < |a|
      invariant 0 <= i <= |a|
      invariant only == OnlyIn(a[..i], other)
    {
      var d := a[i];
      assert a[..i+1][..i] == a[..i];
      assert Unmatched(d, other) <==> d.name !in index || !EqualDep(d, index[d.name]) by {
        assert LastNamed(other, d.name) == (if d.name in index then Some(index[d.name]) else None);
      }
      if d.name !in index || !EqualDep(d, index[d.name]) {
        only := only + [d];
      }
      i := i + 1;
    }
    assert a[..i] == a;
  }

  /** DiffDependencies: onlyA is the in-order subsequence of `a` unmatched in
      `b`, onlyB the in-order subsequence of `b` unmatched in `a`. */
  method DiffDependencies(a: seq<Dependency>, b: seq<Dependency>)
    returns (onlyA: seq<Dependency>, onlyB: seq<Dependency>)
    ensures (onlyA, onlyB) == Diff(a, b)
    ensures forall d :: d in onlyA <==> d in a && Unmatched(d, b)
    ensures forall d :: d in onlyB <==> d in b && Unmatched(d, a)
  {
    var inB := BuildIndex(b);
    onlyA := Select(a, inB, b);
    var inA := BuildIndex(a);
    onlyB := Select(b, inA, a);
    OnlyInMembers(a, b);
    OnlyInMembers(b, a);
  }

  // ---------------------------------------------------------------------
  // Properties of the diff

  lemma {:induction false} OnlyInMembers(a: seq<Dependency>, other: seq<Dependency>)
    ensures forall d :: d in OnlyIn(a, other) <==> d in a && Unmatched(d, other)
  {
    if |a| > 0 {
      OnlyInMembers(a[..|a|-1], other);
      assert a == a[..|a|-1] + [a[|a|-1]];
    }
  }

  /** The output keeps the input's order: it distributes over concatenation. */
  lemma {:induction false} OnlyInConcat(a1: seq<Dependency>, a2: seq<Dependency>, other: seq<Dependency>)
    ensures OnlyIn(a1 + a2, other) == OnlyIn(a1, other) + OnlyIn(a2, other)
  {
    if |a2| > 0 {
      var a2' := a2[..|a2|-1];
      assert (a1 + a2)[..|a1 + a2| - 1] == a1 + a2';
      OnlyInConcat(a1, a2', other);
    } else {
      assert a1 + a2 == a1;
    }
  }

  /** How often an entry occurs in the output: as often as in the input when
      it is unmatched, never otherwise. */
  lemma {:induction false} OnlyInMultiset(a: seq<Dependency>, other: seq<Dependency>, x: Dependency)
    ensures multiset(OnlyIn(a, other))[x] == if Unmatched(x, other) then multiset(a)[x] else 0
  {
    if |a| > 0 {
      OnlyInMultiset(a[..|a|-1], other, x);
      assert a == a[..|a|-1] + [a[|a|-1]];
    }
  }

  /** Reordering `a` only reorders onlyA: the output is a permutation of the
      output for the original order (it is NOT the same sequence). */
  lemma OnlyInPermuteSelf(a: seq<Dependency>, a': seq<Dependency>, other: seq<Dependency>)
    requires multiset(a) == multiset(a')
    ensures multiset(OnlyIn(a, other)) == multiset(OnlyIn(a', other))
  {
    forall x ensures multiset(OnlyIn(a, other))[x] == multiset(OnlyIn(a', other))[x] {
      OnlyInMultiset(a, other, x);
      OnlyInMultiset(a', other, x);
    }
  }

  /** With unique names, the lookup of an entry's name yields that entry. */
  lemma LookupUnique(s: seq<Dependency>, x: Dependency)
    requires UniqueNames(s) && x in s
    ensures LastNamed(s, x.name) == Some(x)
  {
    var i :| 0 <= i < |s| && s[i] == x;
    var r := LastNamed(s, x.name);
    assert r.Some?;
    var j :| 0 <= j < |s| && s[j] == r.value && s[j].name == x.name &&
             forall k :: j < k < |s| ==> s[k].name != x.name;
    assert i == j;
  }

  /** On a list with unique names an entry is unmatched exactly when the list
      holds no tolerance-equal entry. */
  lemma UnmatchedUnique(x: Dependency, s: seq<Dependency>)
    requires UniqueNames(s)
    ensures Unmatched(x, s) <==> !exists d :: d in s && EqualDep(x, d)
  {
    match LastNamed(s, x.name)
    case None =>
    case Some(y) =>
      forall d | d in s && EqualDep(x, d) ensures d == y {
        LookupUnique(s, d);
      }
  }

  /** Diff(a, a) is empty on both sides when `a` has unique names. */
  lemma {:induction false} DiffSelf(a: seq<Dependency>)
    requires UniqueNames(a)
    ensures Diff(a, a) == ([], [])
  {
    SelfMatched(a, a);
  }

  lemma {:induction false} SelfMatched(p: seq<Dependency>, a: seq<Dependency>)
    requires UniqueNames(a)
    requires forall d :: d in p ==> d in a
    ensures OnlyIn(p, a) == []
  {
    if |p| > 0 {
      var d := p[|p|-1];
      LookupUnique(a, d);
      SelfMatched(p[..|p|-1], a);
    }
  }

  /** With a repeated name the self-diff is not empty: the earlier entry is
      compared with the later one that overwrote it in the index. */
  lemma DiffSelfDuplicate()
    ensures var a := [Dependency(1.0, "x", 0), Dependency(2.0, "x", 0)];
      Diff(a, a) == ([a[0]], [a[0]])
  {
    var a := [Dependency(1.0, "x", 0), Dependency(2.0, "x", 0)];
    assert LastNamed(a, "x") == Some(a[1]);
    assert a[..1] == [a[0]] && a[..1][..0] == [];
    assert OnlyIn(a[..1], a) == [a[0]];
    assert OnlyIn(a, a) == OnlyIn(a[..1], a);
  }

  /** Reordering a list with unique names keeps them unique. */
  lemma UniquePermutation(b: seq<Dependency>, b': seq<Dependency>)
    requires UniqueNames(b) && multiset(b) == multiset(b')
    ensures UniqueNames(b')
  {
    assert Seqs.Distinct(b);
    Seqs.DistinctPermutation(b, b');
    forall i, j | 0 <= i < j < |b'| ensures b'[i].name != b'[j].name {
      assert b'[i] in multiset(b') && b'[j] in multiset(b');
      var p :| 0 <= p < |b| && b[p] == b'[i];
      var q :| 0 <= q < |b| && b[q] == b'[j];
    }
  }

  /** With unique names in `b`, the order of `b` does not affect onlyA. */
  lemma {:induction false} OnlyInPermuteOther(a: seq<Dependency>, b: seq<Dependency>, b': seq<Dependency>)
    requires UniqueNames(b) && multiset(b) == multiset(b')
    ensures OnlyIn(a, b) == OnlyIn(a, b')
  {
    if |a| > 0 {
      OnlyInPermuteOther(a[..|a|-1], b, b');
      var d := a[|a|-1];
      UniquePermutation(b, b');
      UnmatchedUnique(d, b);
      UnmatchedUnique(d, b');
      assert forall e :: e in b <==> e in b' by {
        forall e ensures e in b <==> e in b' {
          assert e in b <==> e in multiset(b);
        }
      }
    }
  }

  /** With no name in common, each side is its own "only" output, in order. */
  lemma {:induction false} DiffDisjoint(a: seq<Dependency>, b: seq<Dependency>)
    requires forall i, j :: 0 <= i < |a| && 0 <= j < |b| ==> a[i].name != b[j].name
    ensures Diff(a, b) == (a, b)
  {
    OnlyInNoneMatched(a, b);
    OnlyInNoneMatched(b, a);
  }

  lemma {:induction false} OnlyInNoneMatched(a: seq<Dependency>, b: seq<Dependency>)
    requires forall i, j :: 0 <= i < |a| && 0 <= j < |b| ==> a[i].name != b[j].name
    ensures OnlyIn(a, b) == a
  {
    if |a| > 0 {
      OnlyInNoneMatched(a[..|a|-1], b);
      assert LastNamed(b, a[|a|-1].name).None?;
      assert a == a[..|a|-1] + [a[|a|-1]];
    }
  }

  /** A name present on both sides (each with unique names) whose entries are
      not tolerance-equal shows up in both outputs, each carrying its own
      side's entry, and is the only entry of that name there. */
  lemma DiffMismatch(a: seq<Dependency>, b: seq<Dependency>, x: Dependency, y: Dependency)
    requires UniqueNames(a) && UniqueNames(b)
    requires x in a && y in b && x.name == y.name && !EqualDep(x, y)
    ensures x in Diff(a, b).0 && y in Diff(a, b).1
    ensures forall d :: d in Diff(a, b).0 && d.name == x.name ==> d == x
    ensures forall d :: d in Diff(a, b).1 && d.name == y.name ==> d == y
  {
    LookupUnique(b, y);
    LookupUnique(a, x);
    OnlyInMembers(a, b);
    OnlyInMembers(b, a);
    forall d | d in a && d.name == x.name ensures d == x {
      LookupUnique(a, d);
    }
    forall d | d in b && d.name == y.name ensures d == y {
      LookupUnique(b, d);
    }
  }

  /** The "only" output of a list with unique names has unique names. */
  lemma {:induction false} OnlyInUnique(a: seq<Dependency>, other: seq<Dependency>)
    requires UniqueNames(a)
    ensures UniqueNames(OnlyIn(a, other))
  {
    if |a| > 0 {
      var init := a[..|a|-1];
      OnlyInUnique(init, other);
      OnlyInMembers(init, other);
      var r := OnlyIn(init, other);
      forall i | 0 <= i < |r| ensures r[i].name != a[|a|-1].name {
        assert r[i] in init;
      }
    }
  }

  /** When every entry of `a` is matched, `a` contributes nothing. */
  lemma NoneUnmatched(a: seq<Dependency>, other: seq<Dependency>)
    requires forall d :: d in a ==> !Unmatched(d, other)
    ensures OnlyIn(a, other) == []
  {
    OnlyInMembers(a, other);
  }

  /** Two lists with unique names whose every entry has a tolerance-equal
      partner on the other side have an empty diff, whatever their order. */
  lemma DiffEmptyWhenMatched(a: seq<Dependency>, b: seq<Dependency>)
    requires UniqueNames(a) && UniqueNames(b)
    requires forall d :: d in a ==> exists e :: e in b && EqualDep(d, e)
    requires forall e :: e in b ==> exists d :: d in a && EqualDep(e, d)
    ensures Diff(a, b) == ([], [])
  {
    forall d | d in a ensures !Unmatched(d, b) {
      UnmatchedUnique(d, b);
    }
    forall e | e in b ensures !Unmatched(e, a) {
      UnmatchedUnique(e, a);
    }
    NoneUnmatched(a, b);
    NoneUnmatched(b, a);
  }

  /** A list with unique names and any reordering of it have an empty diff. */
  lemma DiffPermuted(a: seq<Dependency>, b: seq<Dependency>)
    requires UniqueNames(a) && multiset(a) == multiset(b)
    ensures Diff(a, b) == ([], [])
  {
    UniquePermutation(a, b);
    forall d | d in a ensures exists e :: e in b && EqualDep(d, e) {
      assert d in multiset(b);
      EqualDepMeaning(d, d);
    }
    forall e | e in b ensures exists d :: d in a && EqualDep(e, d) {
      assert e in multiset(a);
      EqualDepMeaning(e, e);
    }
    DiffEmptyWhenMatched(a, b);
  }
}

=== FILE: domain.dfy ===
/** The records the dependency manager passes between its service and its
    storage layer, and the error values both return.

    Timestamps are Unix seconds (Go `int64`) and are kept as unbounded `int`;
    scores (Go `float64`) are kept as exact `real`.
 */
module Domain {

  datatype Option<+T> = None | Some(value: T)

  /** A Go `(value, error)` return: exactly one of the two is meaningful. */
  datatype Result<+T> = Ok(value: T) | Err(error: Error)

  /** Errors as the core produces them. The first three are the sentinels of
      the `depsmanager` package; `UniqueViolation` is the SQLite error for a
      second row with the same (project, dependency name); `RemoteFailure`
      is a transport, status or decoding failure of the metadata client; and
      `Wrapped` is `fmt.Errorf("<context>: %w", cause)`. */
  datatype Error =
    | ProjectNotFound
    | DependencyNotFound
    | DependencyAlreadyExists
    | UniqueViolation(dependencyName: string)
    | RemoteFailure
    | Wrapped(context: string, cause: Error)

  /** `errors.Is(e, target)`: `target` is `e` or is reached by unwrapping. */
  predicate Is(e: Error, target: Error)
  {
    e == target || (e.Wrapped? && Is(e.cause, target))
  }

  /** One scored dependency of a project. */
  datatype Dependency = Dependency(score: real, name: string, updatedAt: int)

  /** A project is identified by its (name, version) pair. */
  datatype Project = Project(name: string, version: string, updatedAt: int)

  /** The unit of work the service hands to storage. */
  datatype ProjectDependencyRecord =
    ProjectDependencyRecord(project: Project, dependencies: seq<Dependency>)

  /** No two entries share a name. */
  predicate UniqueNames(ds: seq<Dependency>)
  {
    forall i, j :: 0 <= i < j < |ds| ==> ds[i].name != ds[j].name
  }

  /** Some entry of `ds` is named `name`. */
  predicate HasName(ds: seq<Dependency>, name: string)
  {
    exists d :: d in ds && d.name == name
  }
}

=== FILE: order.dfy ===
/** The orders the storage queries sort by (`ORDER BY dependency_name`,
    `ORDER BY p.name, p.version`, and the `(project_id, dependency_name)`
    index that answers `WHERE project_id = ?`) and the sorting that
    realises them.

    SQLite's default BINARY collation compares the UTF-8 bytes of two
    strings; on Unicode scalar values that is the code-point lexicographic
    order `StrLess` defines.
 */
module Order {
  import opened Domain

  predicate StrLess(a: string, b: string)
  {
    if |a| == 0 then |b| > 0
    else if |b| == 0 then false
    else a[0] < b[0] || (a[0] == b[0] && StrLess(a[1..], b[1..]))
  }

  lemma {:induction false} StrLessIrreflexive(a: string)
    ensures !StrLess(a, a)
  {
    if |a| > 0 {
      StrLessIrreflexive(a[1..]);
    }
  }

  lemma {:induction false} StrLessTransitive(a: string, b: string, c: string)
    requires StrLess(a, b) && StrLess(b, c)
    ensures StrLess(a, c)
  {
    if |a| > 0 && |b| > 0 && |c| > 0 && a[0] == b[0] && b[0] == c[0] {
      StrLessTransitive(a[1..], b[1..], c[1..]);
    }
  }

  lemma {:induction false} StrLessTotal(a: string, b: string)
    ensures a == b || StrLess(a, b) || StrLess(b, a)
  {
    if |a| > 0 && |b| > 0 && a[0] == b[0] {
      StrLessTotal(a[1..], b[1..]);
      if a[1..] == b[1..] {
        assert a == [a[0]] + a[1..] && b == [b[0]] + b[1..];
      }
    }
  }

  lemma StrLessAsymmetric(a: string, b: string)
    requires StrLess(a, b)
    ensures !StrLess(b, a)
  {
    if StrLess(b, a) {
      StrLessTransitive(a, b, a);
      StrLessIrreflexive(a);
    }
  }

  // ---------------------------------------------------------------------
  // Names: SELECT DISTINCT ... ORDER BY dependency_name

  predicate StrictlyIncreasing(s: seq<string>)
  {
    forall i, j :: 0 <= i < j < |s| ==> StrLess(s[i], s[j])
  }

  /** Inserts `x` into a strictly increasing sequence, dropping it when it is
      already there. */
  function InsertDistinct(x: string, s: seq<string>): (r: seq<string>)
    requires StrictlyIncreasing(s)
    ensures StrictlyIncreasing(r)
    ensures forall y :: y in r <==> y == x || y in s
  {
    if |s| == 0 then [x]
    else if x == s[0] then s
    else if StrLess(x, s[0]) then
      assert forall j :: 0 < j < |s| ==> StrLess(x, s[j]) by {
        forall j | 0 < j < |s| ensures StrLess(x, s[j]) {
          StrLessTransitive(x, s[0], s[j]);
        }
      }
      [x] + s
    else
      StrLessTotal(x, s[0]);
      var rest := InsertDistinct(x, s[1..]);
      assert forall y :: y in rest ==> StrLess(s[0], y);
      [s[0]] + rest
  }

  /** The distinct elements of `s` in increasing order. */
  function SortDistinct(s: seq<string>): (r: seq<string>)
    ensures StrictlyIncreasing(r)
    ensures forall y :: y in r <==> y in s
  {
    if |s| == 0 then []
    else
      var rest := SortDistinct(s[..|s|-1]);
      assert s == s[..|s|-1] + [s[|s|-1]];
      InsertDistinct(s[|s|-1], rest)
  }

  /** A strictly increasing sequence is fixed by its set of elements: this is
      why the query results below are fully determined by their contracts. */
  lemma {:induction false} StrictlyIncreasingUnique(r: seq<string>, t: seq<string>)
    requires StrictlyIncreasing(r) && StrictlyIncreasing(t)
    requires forall y :: y in r <==> y in t
    ensures r == t
  {
    if |r| > 0 { assert r[0] in r; }
    if |t| > 0 { assert t[0] in t; }
    if |r| > 0 {
      var k :| 0 <= k < |t| && t[k] == r[0];
      var m :| 0 <= m < |r| && r[m] == t[0];
      if k > 0 && m > 0 {
        // each head would sort strictly before the other
        StrLessAsymmetric(t[0], r[0]);
        assert false;
      }
      assert r == [r[0]] + r[1..] && t == [t[0]] + t[1..];
      forall y ensures y in r[1..] <==> y in t[1..] {
        if y in r[1..] {
          var i :| 1 <= i < |r| && r[i] == y;
          StrLessIrreflexive(y);
          assert y in t && y != t[0];
        }
        if y in t[1..] {
          var i :| 1 <= i < |t| && t[i] == y;
          StrLessIrreflexive(y);
          assert y in r && y != r[0];
        }
      }
      StrictlyIncreasingUnique(r[1..], t[1..]);
    }
  }

  // ---------------------------------------------------------------------
  // Dependencies by name: the order of the UNIQUE(project_id,
  // dependency_name) index

  /** No later entry's name sorts before an earlier one's. */
  predicate NamesSorted(s: seq<Dependency>)
  {
    forall i, j :: 0 <= i < j < |s| ==> !StrLess(s[j].name, s[i].name)
  }

  /** "Not before" on strings is transitive. */
  lemma StrNotLessTransitive(y: string, a: string, x: string)
    requires !StrLess(y, a) && !StrLess(a, x)
    ensures !StrLess(y, x)
  {
    StrLessTotal(a, x);
    if StrLess(x, a) && StrLess(y, x) {
      StrLessTransitive(y, x, a);
    }
  }

  lemma {:induction false} NamesSortedFront(x: Dependency, s: seq<Dependency>)
    requires NamesSorted(s) && |s| > 0 && !StrLess(s[0].name, x.name)
    ensures NamesSorted([x] + s)
  {
    var t := [x] + s;
    forall i, j | 0 <= i < j < |t| ensures !StrLess(t[j].name, t[i].name) {
      if i == 0 {
        assert t[j] == s[j-1];
        if j - 1 > 0 {
          assert !StrLess(s[j-1].name, s[0].name);
          StrNotLessTransitive(s[j-1].name, s[0].name, x.name);
        }
      } else {
        assert t[i] == s[i-1] && t[j] == s[j-1];
      }
    }
  }

  lemma {:induction false} NamesSortedBehindHead(h: Dependency, rest: seq<Dependency>, tail: seq<Dependency>,
                                                 x: Dependency)
    requires NamesSorted(rest) && StrLess(h.name, x.name)
    requires multiset(rest) == multiset(tail) + multiset{x}
    requires forall y :: y in tail ==> !StrLess(y.name, h.name)
    ensures NamesSorted([h] + rest)
  {
    var t := [h] + rest;
    forall i, j | 0 <= i < j < |t| ensures !StrLess(t[j].name, t[i].name) {
      if i == 0 {
        var y := rest[j-1];
        assert y in multiset(rest);
        if y == x {
          StrLessAsymmetric(h.name, x.name);
        } else {
          assert y in multiset(tail);
        }
      } else {
        assert t[i] == rest[i-1] && t[j] == rest[j-1];
      }
    }
  }

  function InsertByName(x: Dependency, s: seq<Dependency>): (r: seq<Dependency>)
    requires NamesSorted(s)
    ensures NamesSorted(r)
    ensures multiset(r) == multiset(s) + multiset{x}
  {
    if |s| == 0 then [x]
    else if !StrLess(s[0].name, x.name) then
      NamesSortedFront(x, s);
      [x] + s
    else
      var rest := InsertByName(x, s[1..]);
      assert s == [s[0]] + s[1..];
      assert forall y :: y in s[1..] ==> !StrLess(y.name, s[0].name) by {
        forall y | y in s[1..] ensures !StrLess(y.name, s[0].name) {
          var k :| 0 <= k < |s[1..]| && s[1..][k] == y;
          assert s[k+1] == y;
        }
      }
      NamesSortedBehindHead(s[0], rest, s[1..], x);
      [s[0]] + rest
  }

  /** Insertion sort by name. */
  function SortByName(s: seq<Dependency>): (r: seq<Dependency>)
    ensures NamesSorted(r)
    ensures multiset(r) == multiset(s)
  {
    if |s| == 0 then []
    else
      assert s == s[..|s|-1] + [s[|s|-1]];
      InsertByName(s[|s|-1], SortByName(s[..|s|-1]))
  }

  /** With unique names, a name-sorted list is fixed by its members: any
      two readings of the same rows in index order agree. */
  lemma {:induction false} NamesSortedUnique(r: seq<Dependency>, t: seq<Dependency>)
    requires NamesSorted(r) && NamesSorted(t) && UniqueNames(r) && UniqueNames(t)
    requires forall d :: d in r <==> d in t
    ensures r == t
  {
    if |t| > 0 { assert t[0] in t; }
    if |r| > 0 {
      NamesSortedSameHead(r, t);
      NamesSortedTails(r, t);
      NamesSortedUnique(r[1..], t[1..]);
      assert r == [r[0]] + r[1..] && t == [t[0]] + t[1..];
    }
  }

  /** Two such lists start with the same entry. */
  lemma NamesSortedSameHead(r: seq<Dependency>, t: seq<Dependency>)
    requires NamesSorted(r) && NamesSorted(t) && UniqueNames(t)
    requires forall d :: d in r <==> d in t
    requires |r| > 0
    ensures |t| > 0 && r[0] == t[0]
  {
    assert r[0] in r;
    var k :| 0 <= k < |t| && t[k] == r[0];
    assert t[0] in t;
    var m :| 0 <= m < |r| && r[m] == t[0];
    if k > 0 && m > 0 {
      // each head sorts no later than the other, so they share a name
      assert !StrLess(t[k].name, t[0].name) && !StrLess(r[m].name, r[0].name);
      StrLessTotal(r[0].name, t[0].name);
      assert false;
    }
  }

  /** Their tails are again name-sorted, unique and have the same members. */
  lemma NamesSortedTails(r: seq<Dependency>, t: seq<Dependency>)
    requires NamesSorted(r) && NamesSorted(t) && UniqueNames(r) && UniqueNames(t)
    requires forall d :: d in r <==> d in t
    requires |r| > 0 && |t| > 0 && r[0] == t[0]
    ensures NamesSorted(r[1..]) && NamesSorted(t[1..]) && UniqueNames(r[1..]) && UniqueNames(t[1..])
    ensures forall d :: d in r[1..] <==> d in t[1..]
  {
    forall y ensures y in r[1..] <==> y in t[1..] {
      if y in r[1..] {
        var i :| 1 <= i < |r| && r[i] == y;
        assert y in t && y != t[0];
      }
      if y in t[1..] {
        var i :| 1 <= i < |t| && t[i] == y;
        assert y in r && y != r[0];
      }
    }
  }

  // ---------------------------------------------------------------------
  // Projects: ORDER BY p.name, p.version

  predicate ProjectLess(p: Project, q: Project)
  {
    StrLess(p.name, q.name) || (p.name == q.name && StrLess(p.version, q.version))
  }

  /** No later element sorts before an earlier one. */
  predicate ProjectsSorted(s: seq<Project>)
  {
    forall i, j :: 0 <= i < j < |s| ==> !ProjectLess(s[j], s[i])
  }

  lemma ProjectLessTransitive(p: Project, q: Project, o: Project)
    requires ProjectLess(p, q) && ProjectLess(q, o)
    ensures ProjectLess(p, o)
  {
    if StrLess(p.name, q.name) && StrLess(q.name, o.name) {
      StrLessTransitive(p.name, q.name, o.name);
    } else if p.name == q.name && q.name == o.name {
      StrLessTransitive(p.version, q.version, o.version);
    }
  }

  lemma ProjectLessTotal(p: Project, q: Project)
    ensures ProjectLess(p, q) || ProjectLess(q, p) || (p.name == q.name && p.version == q.version)
  {
    StrLessTotal(p.name, q.name);
    StrLessTotal(p.version, q.version);
  }

  lemma ProjectLessAsymmetric(p: Project, q: Project)
    requires ProjectLess(p, q)
    ensures !ProjectLess(q, p)
  {
    if StrLess(p.name, q.name) {
      StrLessAsymmetric(p.name, q.name);
      if q.name == p.name { StrLessIrreflexive(p.name); }
    } else {
      StrLessAsymmetric(p.version, q.version);
      StrLessIrreflexive(p.name);
    }
  }

  /** "Not before" is transitive: the keys form a total preorder. */
  lemma NotLessTransitive(y: Project, a: Project, x: Project)
    requires !ProjectLess(y, a) && !ProjectLess(a, x)
    ensures !ProjectLess(y, x)
  {
    ProjectLessTotal(a, x);
    if ProjectLess(x, a) && ProjectLess(y, x) {
      ProjectLessTransitive(y, x, a);
    }
  }

  lemma {:induction false} SortedFront(x: Project, s: seq<Project>)
    requires ProjectsSorted(s) && |s| > 0 && !ProjectLess(s[0], x)
    ensures ProjectsSorted([x] + s)
  {
    var t := [x] + s;
    forall i, j | 0 <= i < j < |t| ensures !ProjectLess(t[j], t[i]) {
      if i == 0 {
        assert t[j] == s[j-1];
        if j - 1 == 0 {
          StrLessIrreflexive(s[0].name);
          StrLessIrreflexive(s[0].version);
        } else {
          assert !ProjectLess(s[j-1], s[0]);
        }
        NotLessTransitive(s[j-1], s[0], x);
      } else {
        assert t[i] == s[i-1] && t[j] == s[j-1];
      }
    }
  }

  lemma {:induction false} SortedBehindHead(h: Project, rest: seq<Project>, tail: seq<Project>, x: Project)
    requires ProjectsSorted(rest) && ProjectLess(h, x)
    requires multiset(rest) == multiset(tail) + multiset{x}
    requires forall y :: y in tail ==> !ProjectLess(y, h)
    ensures ProjectsSorted([h] + rest)
  {
    var t := [h] + rest;
    forall i, j | 0 <= i < j < |t| ensures !ProjectLess(t[j], t[i]) {
      if i == 0 {
        var y := rest[j-1];
        assert y in multiset(rest);
        if y == x {
          ProjectLessAsymmetric(h, x);
        } else {
          assert y in multiset(tail);
        }
      } else {
        assert t[i] == rest[i-1] && t[j] == rest[j-1];
      }
    }
  }

  function InsertProject(x: Project, s: seq<Project>): (r: seq<Project>)
    requires ProjectsSorted(s)
    ensures ProjectsSorted(r)
    ensures multiset(r) == multiset(s) + multiset{x}
  {
    if |s| == 0 then [x]
    else if !ProjectLess(s[0], x) then
      SortedFront(x, s);
      [x] + s
    else
      var rest := InsertProject(x, s[1..]);
      assert s == [s[0]] + s[1..];
      assert forall y :: y in s[1..] ==> !ProjectLess(y, s[0]) by {
        forall y | y in s[1..] ensures !ProjectLess(y, s[0]) {
          var k :| 0 <= k < |s[1..]| && s[1..][k] == y;
          assert s[k+1] == y;
        }
      }
      SortedBehindHead(s[0], rest, s[1..], x);
      [s[0]] + rest
  }

  /** Insertion sort by (name, version). */
  function SortProjects(s: seq<Project>): (r: seq<Project>)
    ensures ProjectsSorted(r)
    ensures multiset(r) == multiset(s)
  {
    if |s| == 0 then []
    else
      assert s == s[..|s|-1] + [s[|s|-1]];
      InsertProject(s[|s|-1], SortProjects(s[..|s|-1]))
  }
}

=== FILE: remote.dfy ===
/** The responses of the package-metadata client (clients/depsclient.go), as
    the service sees them. Transport, status codes and JSON decoding are not
    modelled: each call's outcome is an input. */
module Remote {
  import opened Domain

  /** One call's outcome: the decoded body, a 404, or any other failure. */
  datatype Response<+T> = Fetched(data: T) | NotFound | Failure

  /** The client's `(data, err)`: a 404 is `ErrProjectNotFound`, anything
      else that is not a decoded 200 is an opaque failure. */
  function AsResult<T>(resp: Response<T>): (r: Result<T>)
    ensures r.Ok? <==> resp.Fetched?
    ensures r.Ok? ==> r.value == resp.data
    ensures r.Err? ==> (Is(r.error, ProjectNotFound) <==> resp.NotFound?)
  {
    match resp
    case Fetched(data) => Ok(data)
    case NotFound => Err(ProjectNotFound)
    case Failure => Err(RemoteFailure)
  }

  datatype VersionKey = VersionKey(system: string, name: string, version: string)

  /** A node of a dependency graph: a package version and its relation to
      the graph's root (`SELF`, `DIRECT` or `INDIRECT`). */
  datatype Node = Node(versionKey: VersionKey, relation: string)

  datatype RelatedProject = RelatedProject(id: string, relationType: string)

  /** One response of the versions batch: the package name and the projects
      (repositories) it is related to. */
  datatype VersionsEntry = VersionsEntry(name: string, relatedProjects: seq<RelatedProject>)

  /** One response of the projects batch. `date` is the scorecard date in
      Unix seconds, `None` for Go's zero `time.Time`. */
  datatype ProjectsEntry = ProjectsEntry(id: string, date: Option<int>, overallScore: real)

  /** One version of a package, from the package lookup. */
  datatype VersionEntry = VersionEntry(version: string, isDefault: bool)
}

=== FILE: seqs.dfy ===
/** Sequence helpers: an order-preserving filter and facts about
    permutations. */
module Seqs {

  /** The elements of `s` that satisfy `keep`, in their original order. */
  function Filter<T(!new)>(s: seq<T>, keep: T -> bool): (r: seq<T>)
    ensures forall x :: x in r <==> x in s && keep(x)
    ensures |r| <= |s|
  {
    if |s| == 0 then []
    else
      assert s == s[..|s|-1] + [s[|s|-1]];
      Filter(s[..|s|-1], keep) + (if keep(s[|s|-1]) then [s[|s|-1]] else [])
  }

  lemma {:induction false} FilterConcat<T(!new)>(a: seq<T>, b: seq<T>, keep: T -> bool)
    ensures Filter(a + b, keep) == Filter(a, keep) + Filter(b, keep)
  {
    if |b| == 0 {
      assert a + b == a;
    } else {
      assert (a + b)[..|a + b| - 1] == a + b[..|b|-1];
      FilterConcat(a, b[..|b|-1], keep);
    }
  }

  /** A relation that holds between every earlier and later element still
      holds after filtering. */
  lemma {:induction false} FilterPairwise<T(!new)>(s: seq<T>, keep: T -> bool, rel: (T, T) -> bool)
    requires forall i, j :: 0 <= i < j < |s| ==> rel(s[i], s[j])
    ensures forall i, j :: 0 <= i < j < |Filter(s, keep)| ==> rel(Filter(s, keep)[i], Filter(s, keep)[j])
  {
    if |s| > 0 {
      var p := s[..|s|-1];
      FilterPairwise(p, keep, rel);
      var fp := Filter(p, keep);
      forall i | 0 <= i < |fp| ensures rel(fp[i], s[|s|-1]) {
        assert fp[i] in p;
        var k :| 0 <= k < |p| && p[k] == fp[i];
        assert s[k] == fp[i];
      }
      var r := Filter(s, keep);
      assert r == fp + (if keep(s[|s|-1]) then [s[|s|-1]] else []);
      forall i, j | 0 <= i < j < |r| ensures rel(r[i], r[j]) {
        if j < |fp| {
          assert r[i] == fp[i] && r[j] == fp[j];
        } else {
          assert r[i] == fp[i] && r[j] == s[|s|-1];
        }
      }
    }
  }

  lemma {:induction false} FilterKeepsAll<T(!new)>(s: seq<T>, keep: T -> bool)
    requires forall x :: x in s ==> keep(x)
    ensures Filter(s, keep) == s
  {
    if |s| > 0 {
      FilterKeepsAll(s[..|s|-1], keep);
      assert s == s[..|s|-1] + [s[|s|-1]];
    }
  }

  /** No element occurs twice. */
  predicate Distinct<T(==)>(s: seq<T>)
  {
    forall i, j :: 0 <= i < j < |s| ==> s[i] != s[j]
  }

  lemma {:induction false} OccursTwice<T>(s: seq<T>, x: T)
    requires multiset(s)[x] >= 2
    ensures exists i, j :: 0 <= i < j < |s| && s[i] == x && s[j] == x
  {
    assert s == [s[0]] + s[1..];
    if s[0] == x {
      assert x in multiset(s[1..]);
      var k :| 0 <= k < |s[1..]| && s[1..][k] == x;
      assert s[0] == x && s[k + 1] == x;
    } else {
      OccursTwice(s[1..], x);
      var i, j :| 0 <= i < j < |s[1..]| && s[1..][i] == x && s[1..][j] == x;
      assert s[i + 1] == x && s[j + 1] == x;
    }
  }

  lemma CountAtLeastTwo<T>(s: seq<T>, i: int, j: int)
    requires 0 <= i < j < |s| && s[i] == s[j]
    ensures multiset(s)[s[i]] >= 2
  {
    assert s == s[..j] + [s[j]] + s[j+1..];
    assert s[..j][i] == s[i];
    assert s[i] in multiset(s[..j]);
  }

  /** Reordering keeps a sequence free of repetitions. */
  lemma DistinctPermutation<T>(s: seq<T>, t: seq<T>)
    requires multiset(s) == multiset(t) && Distinct(s)
    ensures Distinct(t)
  {
    forall i, j | 0 <= i < j < |t| ensures t[i] != t[j] {
      if t[i] == t[j] {
        CountAtLeastTwo(t, i, j);
        OccursTwice(s, t[i]);
      }
    }
  }
}

=== FILE: service.dfy ===
/** The ingestion pipeline of service/service.go: from the dependency graph
    of one npm package version, through the two batch lookups, to the one
    record handed to storage.

    The four remote calls are inputs (`Response`s). `Gather` returns the
    batch requests the pipeline makes (or `None` when it does not make
    them) and either the dependency list it stores or the error it returns
    without storing. The clock is an input as well (`now`). */
module Service {
  import opened Domain
  import opened Remote
  import Storage
  import StorageFacts
  import Order

  const SelfRelation: string := "SELF"
  const SourceRepo: string := "SOURCE_REPO"

  // ---------------------------------------------------------------------
  // Stage 1: the versions-batch request

  /** The de-duplication key: the system and the name run together, not a
      pair, so ("npm", "react") and ("npmr", "eact") share a key. */
  function Key(k: VersionKey): string
  {
    k.system + k.name
  }

  /** Node `i` is requested: it is not the root and no earlier non-root
      node has its key. */
  predicate IsFirst(nodes: seq<Node>, i: int)
    requires 0 <= i < |nodes|
  {
    nodes[i].relation != SelfRelation &&
    forall j :: 0 <= j < i && nodes[j].relation != SelfRelation ==> Key(nodes[j].versionKey) != Key(nodes[i].versionKey)
  }

  /** The requested indices below `n`, ascending. */
  function FirstIndices(nodes: seq<Node>, n: int): (r: seq<int>)
    requires 0 <= n <= |nodes|
    ensures forall k :: 0 <= k < |r| ==> 0 <= r[k] < n && IsFirst(nodes, r[k])
    ensures forall i :: 0 <= i < n && IsFirst(nodes, i) ==> i in r
    ensures forall k1, k2 :: 0 <= k1 < k2 < |r| ==> r[k1] < r[k2]
  {
    if n == 0 then []
    else FirstIndices(nodes, n - 1) + (if IsFirst(nodes, n - 1) then [n - 1] else [])
  }

  function KeysAt(nodes: seq<Node>, idx: seq<int>): seq<VersionKey>
    requires forall k :: 0 <= k < |idx| ==> 0 <= idx[k] < |nodes|
  {
    seq(|idx|, k requires 0 <= k < |idx| => nodes[idx[k]].versionKey)
  }

  /** The versions-batch request: one version key per requested node, in
      node order. */
  function Requests(nodes: seq<Node>): seq<VersionKey>
  {
    KeysAt(nodes, FirstIndices(nodes, |nodes|))
  }

  /** The keys of the non-root nodes below `n`. */
  function SeenKeys(nodes: seq<Node>, n: int): set<string>
    requires 0 <= n <= |nodes|
  {
    set j | 0 <= j < n && nodes[j].relation != SelfRelation :: Key(nodes[j].versionKey)
  }

  /** The loop of lines 67-84: skip the root, skip a key already seen,
      otherwise remember the key and request the node's version key. */
  method CollectRequests(nodes: seq<Node>) returns (reqs: seq<VersionKey>)
    ensures reqs == Requests(nodes)
  {
    reqs := [];
    var seen: set<string> := {};
    var i := 0;
    while i < |nodes|
      invariant 0 <= i <= |nodes|
      invariant seen == SeenKeys(nodes, i)
      invariant reqs == KeysAt(nodes, FirstIndices(nodes, i))
    {
      var node := nodes[i];
      ghost var before := FirstIndices(nodes, i);
      if node.relation == SelfRelation {
        assert SeenKeys(nodes, i + 1) == seen;
      } else {
        var key := node.versionKey.system + node.versionKey.name;
        assert key == Key(node.versionKey);
        if key in seen {
          assert !IsFirst(nodes, i);
          assert SeenKeys(nodes, i + 1) == seen;
        } else {
          assert IsFirst(nodes, i);
          assert SeenKeys(nodes, i + 1) == seen + {key};
          assert KeysAt(nodes, before + [i]) == KeysAt(nodes, before) + [node.versionKey];
          seen := seen + {key};
          reqs := reqs + [node.versionKey];
        }
      }
      i := i + 1;
    }
  }

  /** The request lists only non-root nodes, each key once, and every
      non-root node's key is requested through its first occurrence. */
  lemma RequestsMeaning(nodes: seq<Node>)
    ensures forall k1, k2 :: 0 <= k1 < k2 < |Requests(nodes)| ==>
      Key(Requests(nodes)[k1]) != Key(Requests(nodes)[k2])
    ensures forall k :: 0 <= k < |Requests(nodes)| ==> RequestedFrom(nodes, Requests(nodes)[k])
    ensures forall i :: 0 <= i < |nodes| && nodes[i].relation != SelfRelation ==>
      exists j :: (0 <= j <= i && IsFirst(nodes, j) && Key(nodes[j].versionKey) == Key(nodes[i].versionKey) &&
                   nodes[j].versionKey in Requests(nodes))
  {
    RequestsDistinct(nodes);
    RequestsFirst(nodes);
    RequestsCover(nodes);
  }

  /** Version key `v` is that of a requested node. */
  predicate RequestedFrom(nodes: seq<Node>, v: VersionKey)
  {
    exists i :: 0 <= i < |nodes| && IsFirst(nodes, i) && nodes[i].versionKey == v
  }

  lemma RequestsDistinct(nodes: seq<Node>)
    ensures forall k1, k2 :: 0 <= k1 < k2 < |Requests(nodes)| ==>
      Key(Requests(nodes)[k1]) != Key(Requests(nodes)[k2])
  {
    var idx := FirstIndices(nodes, |nodes|);
    var reqs := Requests(nodes);
    forall k1, k2 | 0 <= k1 < k2 < |reqs| ensures Key(reqs[k1]) != Key(reqs[k2]) {
      var i1, i2 := idx[k1], idx[k2];
      assert reqs[k1] == nodes[i1].versionKey && reqs[k2] == nodes[i2].versionKey;
      assert i1 < i2 && IsFirst(nodes, i1) && IsFirst(nodes, i2);
      assert nodes[i1].relation != SelfRelation;
    }
  }

  lemma RequestsFirst(nodes: seq<Node>)
    ensures forall k :: 0 <= k < |Requests(nodes)| ==> RequestedFrom(nodes, Requests(nodes)[k])
  {
    var idx := FirstIndices(nodes, |nodes|);
    forall k | 0 <= k < |Requests(nodes)| ensures RequestedFrom(nodes, Requests(nodes)[k]) {
      var i := idx[k];
      assert Requests(nodes)[k] == nodes[i].versionKey;
      assert 0 <= i < |nodes| && IsFirst(nodes, i);
    }
  }

  lemma RequestsCover(nodes: seq<Node>)
    ensures forall i :: 0 <= i < |nodes| && nodes[i].relation != SelfRelation ==>
      exists j :: (0 <= j <= i && IsFirst(nodes, j) && Key(nodes[j].versionKey) == Key(nodes[i].versionKey) &&
                   nodes[j].versionKey in Requests(nodes))
  {
    var idx := FirstIndices(nodes, |nodes|);
    var reqs := Requests(nodes);
    forall i | 0 <= i < |nodes| && nodes[i].relation != SelfRelation
      ensures exists j :: (0 <= j <= i && IsFirst(nodes, j) && Key(nodes[j].versionKey) == Key(nodes[i].versionKey) &&
                           nodes[j].versionKey in reqs)
    {
      var j := FirstOccurrence(nodes, i);
      var k :| 0 <= k < |idx| && idx[k] == j;
      assert reqs[k] == nodes[j].versionKey;
    }
  }

  /** The first non-root node at or before `i` with `i`'s key. */
  lemma {:induction false} FirstOccurrence(nodes: seq<Node>, i: int) returns (j: int)
    requires 0 <= i < |nodes| && nodes[i].relation != SelfRelation
    ensures 0 <= j <= i && IsFirst(nodes, j) && Key(nodes[j].versionKey) == Key(nodes[i].versionKey)
    decreases i
  {
    if IsFirst(nodes, i) {
      j := i;
    } else {
      var e :| 0 <= e < i && nodes[e].relation != SelfRelation && Key(nodes[e].versionKey) == Key(nodes[i].versionKey);
      j := FirstOccurrence(nodes, e);
    }
  }

  /** Concatenated keys collide: of two nodes whose system and name differ
      but run together to the same string, only the first is requested. */
  lemma KeyCollision()
    ensures var a := Node(VersionKey("npm", "react", "18.2.0"), "DIRECT");
      var b := Node(VersionKey("npmr", "eact", "1.0.0"), "DIRECT");
      Key(a.versionKey) == Key(b.versionKey) && Requests([a, b]) == [a.versionKey]
  {
    var a := Node(VersionKey("npm", "react", "18.2.0"), "DIRECT");
    var b := Node(VersionKey("npmr", "eact", "1.0.0"), "DIRECT");
    assert Key(a.versionKey) == Key(b.versionKey);
    assert IsFirst([a, b], 0);
    assert !IsFirst([a, b], 1);
    assert FirstIndices([a, b], 2) == [0];
  }

  // ---------------------------------------------------------------------
  // Stage 2: the repository map

  /** The id of the first `SOURCE_REPO` entry, if any; later ones are ignored. */
  function FirstSourceRepo(related: seq<RelatedProject>): (r: Option<string>)
    ensures r.None? <==> forall i :: 0 <= i < |related| ==> related[i].relationType != SourceRepo
    ensures r.Some? ==> exists i :: (0 <= i < |related| && related[i].relationType == SourceRepo &&
                                     related[i].id == r.value &&
                                     forall j :: 0 <= j < i ==> related[j].relationType != SourceRepo)
  {
    if |related| == 0 then None
    else if related[0].relationType == SourceRepo then Some(related[0].id)
    else
      var r := FirstSourceRepo(related[1..]);
      assert forall i :: 1 <= i < |related| ==> related[1..][i - 1] == related[i];
      r
  }

  /** The names of the responses whose first source repository is `id`, in
      response order: the reference for what the map holds under `id`. */
  function NamesFor(rs: seq<VersionsEntry>, id: string): seq<string>
  {
    if |rs| == 0 then []
    else
      var last := rs[|rs|-1];
      NamesFor(rs[..|rs|-1], id) + (if FirstSourceRepo(last.relatedProjects) == Some(id) then [last.name] else [])
  }

  /** The loop of lines 99-107: each response appends its name to the list
      of its first source repository. */
  function RepoNames(rs: seq<VersionsEntry>): (m: map<string, seq<string>>)
    ensures forall id :: id in m <==> |NamesFor(rs, id)| > 0
    ensures forall id :: id in m ==> m[id] == NamesFor(rs, id)
  {
    if |rs| == 0 then map[]
    else
      var m := RepoNames(rs[..|rs|-1]);
      match FirstSourceRepo(rs[|rs|-1].relatedProjects)
      case None => m
      case Some(id) => m[id := (if id in m then m[id] else []) + [rs[|rs|-1].name]]
  }

  /** The map is empty exactly when no response names a source repository. */
  lemma {:induction false} RepoNamesEmpty(rs: seq<VersionsEntry>)
    ensures |RepoNames(rs)| == 0 <==>
      forall i :: 0 <= i < |rs| ==> FirstSourceRepo(rs[i].relatedProjects).None?
  {
    if |rs| > 0 {
      var init := rs[..|rs|-1];
      var last := rs[|rs|-1];
      RepoNamesEmpty(init);
      match FirstSourceRepo(last.relatedProjects)
      case None =>
        assert RepoNames(rs) == RepoNames(init);
        if forall i :: 0 <= i < |init| ==> FirstSourceRepo(init[i].relatedProjects).None? {
          forall i | 0 <= i < |rs| ensures FirstSourceRepo(rs[i].relatedProjects).None? {
            if i < |init| { assert rs[i] == init[i]; }
          }
        }
        if forall i :: 0 <= i < |rs| ==> FirstSourceRepo(rs[i].relatedProjects).None? {
          forall i | 0 <= i < |init| ensures FirstSourceRepo(init[i].relatedProjects).None? {
            assert init[i] == rs[i];
          }
        }
      case Some(id) =>
        assert id in RepoNames(rs);
        assert |RepoNames(rs)| > 0 by {
          assert id in RepoNames(rs).Keys;
        }
        assert FirstSourceRepo(rs[|rs|-1].relatedProjects).Some?;
    }
  }

  // ---------------------------------------------------------------------
  // Stage 3: the scored dependencies

  /** `Date.Unix()`, or 0 for the zero time. */
  function UnixOrZero(date: Option<int>): int
  {
    match date
    case None => 0
    case Some(u) => u
  }

  /** One dependency per name, all with the response's score and date. */
  function Scored(names: seq<string>, p: ProjectsEntry): (r: seq<Dependency>)
    ensures |r| == |names|
    ensures forall k :: 0 <= k < |r| ==>
      r[k] == Dependency(p.overallScore, names[k], UnixOrZero(p.date))
  {
    seq(|names|, k requires 0 <= k < |names| => Dependency(p.overallScore, names[k], UnixOrZero(p.date)))
  }

  /** The loop of lines 126-144: responses in order; a response whose id is
      mapped emits its names, an unmapped one emits nothing. */
  function Emit(ps: seq<ProjectsEntry>, m: map<string, seq<string>>): (r: seq<Dependency>)
    ensures (forall i :: 0 <= i < |ps| ==> ps[i].id !in m) ==> r == []
    ensures |ps| == 1 ==> r == (if ps[0].id in m then Scored(m[ps[0].id], ps[0]) else [])
  {
    if |ps| == 0 then []
    else
      var p := ps[|ps|-1];
      Emit(ps[..|ps|-1], m) + (if p.id in m then Scored(m[p.id], p) else [])
  }

  /** The responses are handled one after another: the emission for two
      batches of responses is the first batch's followed by the second's. */
  lemma {:induction false} EmitConcat(a: seq<ProjectsEntry>, b: seq<ProjectsEntry>, m: map<string, seq<string>>)
    ensures Emit(a + b, m) == Emit(a, m) + Emit(b, m)
  {
    if |b| > 0 {
      var init := b[..|b|-1];
      var p := b[|b|-1];
      EmitConcat(a, init, m);
      assert (a + b)[..|a + b|-1] == a + init;
    } else {
      assert a + b == a;
    }
  }

  /** An emitted dependency is a mapped name of some response carrying that
      response's score and date, and every such pair is emitted. */
  lemma {:induction false} EmitMeaning(ps: seq<ProjectsEntry>, m: map<string, seq<string>>)
    ensures forall d :: d in Emit(ps, m) <==>
      exists p :: p in ps && p.id in m && d.name in m[p.id] &&
        d.score == p.overallScore && d.updatedAt == UnixOrZero(p.date)
  {
    if |ps| > 0 {
      var init := ps[..|ps|-1];
      var p := ps[|ps|-1];
      EmitMeaning(init, m);
      assert ps == init + [p];
      forall d ensures d in Emit(ps, m) <==>
        exists q :: q in ps && q.id in m && d.name in m[q.id] &&
          d.score == q.overallScore && d.updatedAt == UnixOrZero(q.date)
      {
        if p.id in m && d.name in m[p.id] && d.score == p.overallScore && d.updatedAt == UnixOrZero(p.date) {
          var k :| 0 <= k < |m[p.id]| && m[p.id][k] == d.name;
          assert Scored(m[p.id], p)[k] == d;
        }
        if d in Emit(ps, m) && d !in Emit(init, m) {
          assert p in ps;
        }
        if exists q :: q in ps && q.id in m && d.name in m[q.id] &&
             d.score == q.overallScore && d.updatedAt == UnixOrZero(q.date) {
          var q :| q in ps && q.id in m && d.name in m[q.id] &&
             d.score == q.overallScore && d.updatedAt == UnixOrZero(q.date);
          if q != p {
            assert q in init;
          }
        }
      }
    }
  }

  // ---------------------------------------------------------------------
  // The whole pipeline

  /** What the pipeline does with the remote responses: which batch
      requests it sends, and the dependency list it stores or the error it
      returns before storing. */
  datatype Plan = Plan(
    versionsRequest: Option<seq<VersionKey>>,
    projectsRequest: Option<set<string>>,
    outcome: Result<seq<Dependency>>)

  function Gather(graph: Response<seq<Node>>, versions: Response<seq<VersionsEntry>>,
                  projects: Response<seq<ProjectsEntry>>): (p: Plan)
    ensures !graph.Fetched? ==>
      p.versionsRequest.None? && p.outcome.Err? && Is(p.outcome.error, AsResult(graph).error)
    ensures graph.Fetched? ==>
      (p.versionsRequest.None? <==> |Requests(graph.data)| == 0)
    ensures p.versionsRequest.Some? ==> p.versionsRequest.value == Requests(graph.data)
    ensures p.projectsRequest.Some? ==>
      versions.Fetched? && p.projectsRequest.value == RepoNames(versions.data).Keys &&
      p.projectsRequest.value != {}
    ensures p.versionsRequest.Some? && versions.Fetched? ==>
      (p.projectsRequest.None? <==> |RepoNames(versions.data)| == 0)
    ensures p.versionsRequest.Some? && !versions.Fetched? ==> p.outcome == Err(AsResult(versions).error)
    ensures p.projectsRequest.Some? ==>
      p.outcome == (if projects.Fetched? then Ok(Emit(projects.data, RepoNames(versions.data)))
                    else Err(AsResult(projects).error))
    ensures p.projectsRequest.None? && p.outcome.Ok? ==> p.outcome.value == []
    ensures p.versionsRequest.None? ==> p.projectsRequest.None?
    ensures graph.Fetched? && |Requests(graph.data)| == 0 ==> p == Plan(None, None, Ok([]))
  {
    match AsResult(graph)
    case Err(e) => Plan(None, None, Err(Wrapped("s.depsClient.GetProjectDependencies", e)))
    case Ok(nodes) =>
      var reqs := Requests(nodes);
      if |reqs| == 0 then Plan(None, None, Ok([]))
      else
        match AsResult(versions)
        case Err(e) => Plan(Some(reqs), None, Err(e))
        case Ok(rs) =>
          var m := RepoNames(rs);
          if |m| == 0 then Plan(Some(reqs), None, Ok([]))
          else
            assert m.Keys != {} by {
              var id :| id in m;
            }
            match AsResult(projects)
            case Err(e) => Plan(Some(reqs), Some(m.Keys), Err(e))
            case Ok(ps) => Plan(Some(reqs), Some(m.Keys), Ok(Emit(ps, m)))
  }

  /** With no node besides the root, nothing is requested, an empty list is
      stored, and the batch responses play no part. */
  lemma NoDependencies(nodes: seq<Node>, v1: Response<seq<VersionsEntry>>, p1: Response<seq<ProjectsEntry>>,
                       v2: Response<seq<VersionsEntry>>, p2: Response<seq<ProjectsEntry>>)
    requires forall i :: 0 <= i < |nodes| ==> nodes[i].relation == SelfRelation
    ensures Gather(Fetched(nodes), v1, p1) == Plan(None, None, Ok([]))
    ensures Gather(Fetched(nodes), v1, p1) == Gather(Fetched(nodes), v2, p2)
  {
    OnlyRoot(nodes, |nodes|);
  }

  lemma {:induction false} OnlyRoot(nodes: seq<Node>, n: int)
    requires 0 <= n <= |nodes|
    requires forall i :: 0 <= i < n ==> nodes[i].relation == SelfRelation
    ensures FirstIndices(nodes, n) == []
  {
    if n > 0 {
      OnlyRoot(nodes, n - 1);
    }
  }

  /** When no version response names a source repository, the projects
      batch is not sent, an empty list is stored, and the projects response
      plays no part. */
  lemma NoSourceRepository(nodes: seq<Node>, rs: seq<VersionsEntry>,
                           p1: Response<seq<ProjectsEntry>>, p2: Response<seq<ProjectsEntry>>)
    requires |Requests(nodes)| > 0
    requires forall i :: 0 <= i < |rs| ==> FirstSourceRepo(rs[i].relatedProjects).None?
    ensures Gather(Fetched(nodes), Fetched(rs), p1) == Plan(Some(Requests(nodes)), None, Ok([]))
    ensures Gather(Fetched(nodes), Fetched(rs), p1) == Gather(Fetched(nodes), Fetched(rs), p2)
  {
    RepoNamesEmpty(rs);
  }

  /** The full path: each stored dependency is a name mapped to a returned
      repository, with that repository's score and date, and each mapped
      name of each returned repository is stored. */
  lemma StoredDependencies(nodes: seq<Node>, rs: seq<VersionsEntry>, ps: seq<ProjectsEntry>)
    requires |Requests(nodes)| > 0 && |RepoNames(rs)| > 0
    ensures Gather(Fetched(nodes), Fetched(rs), Fetched(ps)).outcome.Ok?
    ensures forall d :: d in Gather(Fetched(nodes), Fetched(rs), Fetched(ps)).outcome.value <==>
      IsScored(d, rs, ps)
  {
    assert Gather(Fetched(nodes), Fetched(rs), Fetched(ps)).outcome == Ok(Emit(ps, RepoNames(rs)));
    EmittedScored(rs, ps);
  }

  /** The emitted list is exactly the scored names of the responses. */
  lemma EmittedScored(rs: seq<VersionsEntry>, ps: seq<ProjectsEntry>)
    ensures forall d :: d in Emit(ps, RepoNames(rs)) <==> IsScored(d, rs, ps)
  {
    var m := RepoNames(rs);
    EmitMeaning(ps, m);
    forall d | d in Emit(ps, m) ensures IsScored(d, rs, ps) {
      var p :| p in ps && p.id in m && d.name in m[p.id] &&
        d.score == p.overallScore && d.updatedAt == UnixOrZero(p.date);
      var i := NamesForSource(rs, p.id, d.name);
      assert d == Dependency(p.overallScore, rs[i].name, UnixOrZero(p.date));
    }
    forall d | IsScored(d, rs, ps) ensures d in Emit(ps, m) {
      var p, i :| p in ps && 0 <= i < |rs| && FirstSourceRepo(rs[i].relatedProjects) == Some(p.id) &&
        d == Dependency(p.overallScore, rs[i].name, UnixOrZero(p.date));
      NamesForHas(rs, p.id, i);
    }
  }

  /** `d` is the name of a version response paired with the score and date
      of the projects response for that name's first source repository. */
  predicate IsScored(d: Dependency, rs: seq<VersionsEntry>, ps: seq<ProjectsEntry>)
  {
    exists p, i :: p in ps && 0 <= i < |rs| && FirstSourceRepo(rs[i].relatedProjects) == Some(p.id) &&
      d == Dependency(p.overallScore, rs[i].name, UnixOrZero(p.date))
  }

  lemma {:induction false} NamesForSource(rs: seq<VersionsEntry>, id: string, n: string) returns (i: int)
    requires n in NamesFor(rs, id)
    ensures 0 <= i < |rs| && FirstSourceRepo(rs[i].relatedProjects) == Some(id) && rs[i].name == n
  {
    var init := rs[..|rs|-1];
    if n in NamesFor(init, id) {
      i := NamesForSource(init, id, n);
    } else {
      i := |rs| - 1;
    }
  }

  lemma {:induction false} NamesForHas(rs: seq<VersionsEntry>, id: string, i: int)
    requires 0 <= i < |rs| && FirstSourceRepo(rs[i].relatedProjects) == Some(id)
    ensures rs[i].name in NamesFor(rs, id)
  {
    var init := rs[..|rs|-1];
    if i < |rs| - 1 {
      NamesForHas(init, id, i);
    }
  }

  /** storeProjectWithDependencies: one record stamped with the clock. */
  function StoreProjectWithDependencies(st: Storage.Store, projectName: string, version: string, now: int,
                                        ds: seq<Dependency>): (r: Result<Storage.Store>)
    ensures r.Ok? <==> Storage.StoreDependencies(st, ProjectDependencyRecord(Project(projectName, version, now), ds)).Ok?
    ensures r.Ok? ==> r == Storage.StoreDependencies(st, ProjectDependencyRecord(Project(projectName, version, now), ds))
    ensures r.Err? ==> r.error.Wrapped?
    ensures r.Err? ==>
      r.error.cause == Storage.StoreDependencies(st, ProjectDependencyRecord(Project(projectName, version, now), ds)).error
  {
    match Storage.StoreDependencies(st, ProjectDependencyRecord(Project(projectName, version, now), ds))
    case Ok(st') => Ok(st')
    case Err(e) => Err(Wrapped("s.storage.StoreDependencies() projectName: " + projectName, e))
  }

  /** FetchAndStoreProjectDependencies over a store: the pipeline's outcome,
      then storage under the caller's name, version and clock. */
  function FetchAndStoreProjectDependencies(
    st: Storage.Store, projectName: string, version: string, now: int,
    graph: Response<seq<Node>>, versions: Response<seq<VersionsEntry>>, projects: Response<seq<ProjectsEntry>>)
    : (r: Result<Storage.Store>)
    ensures Gather(graph, versions, projects).outcome.Err? ==>
      r == Err(Gather(graph, versions, projects).outcome.error)
    ensures Gather(graph, versions, projects).outcome.Ok? ==>
      (r.Ok? <==> Storage.StoreDependencies(st, ProjectDependencyRecord(Project(projectName, version, now),
                                                  Gather(graph, versions, projects).outcome.value)).Ok?)
    ensures Gather(graph, versions, projects).outcome.Ok? && r.Ok? ==>
      r == Storage.StoreDependencies(st, ProjectDependencyRecord(Project(projectName, version, now),
                                                                 Gather(graph, versions, projects).outcome.value))
    ensures Gather(graph, versions, projects).outcome.Ok? && r.Err? ==>
      r.error.Wrapped? && r.error.cause.Wrapped? &&
      r.error.cause.cause == Storage.StoreDependencies(st, ProjectDependencyRecord(Project(projectName, version, now),
                                                       Gather(graph, versions, projects).outcome.value)).error
    ensures Storage.Valid(st) && r.Ok? ==> Storage.Valid(r.value)
  {
    match Gather(graph, versions, projects).outcome
    case Err(e) => Err(e)
    case Ok(ds) =>
      match StoreProjectWithDependencies(st, projectName, version, now, ds)
      case Ok(st') => Ok(st')
      case Err(e) => Err(Wrapped("s.storeProjectWithDependencies()", e))
  }

  /** A failed graph lookup is returned, annotated, and storage is not
      touched: a 404 stays recognisable as `ErrProjectNotFound`. */
  lemma GraphFailure(st: Storage.Store, projectName: string, version: string, now: int,
                     graph: Response<seq<Node>>, versions: Response<seq<VersionsEntry>>,
                     projects: Response<seq<ProjectsEntry>>)
    requires !graph.Fetched?
    ensures FetchAndStoreProjectDependencies(st, projectName, version, now, graph, versions, projects).Err?
    ensures var e := FetchAndStoreProjectDependencies(st, projectName, version, now, graph, versions, projects).error;
      Is(e, ProjectNotFound) <==> graph.NotFound?
  {
    var cause := AsResult(graph).error;
    var e := Wrapped("s.depsClient.GetProjectDependencies", cause);
    assert Gather(graph, versions, projects) == Plan(None, None, Err(e));
    assert FetchAndStoreProjectDependencies(st, projectName, version, now, graph, versions, projects) == Err(e);
    assert Is(e, ProjectNotFound) <==> Is(cause, ProjectNotFound);
  }

  /** Ingesting a new package version whose pipeline yields unique names
      records exactly that version, stamped with the clock, listing exactly
      the pipeline's dependencies in name order. */
  lemma IngestNewVersion(st: Storage.Store, projectName: string, version: string, now: int,
                         graph: Response<seq<Node>>, versions: Response<seq<VersionsEntry>>,
                         projects: Response<seq<ProjectsEntry>>)
    requires Storage.Valid(st)
    requires Storage.ProjectId(st.projects, projectName, version).None?
    requires Gather(graph, versions, projects).outcome.Ok?
    requires UniqueNames(Gather(graph, versions, projects).outcome.value)
    ensures FetchAndStoreProjectDependencies(st, projectName, version, now, graph, versions, projects).Ok?
    ensures var st' := FetchAndStoreProjectDependencies(st, projectName, version, now, graph, versions, projects).value;
      Storage.ListProjects(st') == Storage.ListProjects(st) + [Project(projectName, version, now)] &&
      Storage.ListProjectDependencies(st', projectName, version) ==
        Ok(Order.SortByName(Gather(graph, versions, projects).outcome.value))
  {
    var ds := Gather(graph, versions, projects).outcome.value;
    StorageFacts.StoreNewProject(st, ProjectDependencyRecord(Project(projectName, version, now), ds));
  }

  /** Ingesting a version that is already stored, with unique gathered
      names, keeps every project id, lists the reconciliation of the stored
      and the gathered dependencies in name order, and leaves every other listing as it
      was. */
  lemma IngestExistingVersion(st: Storage.Store, projectName: string, version: string, now: int,
                              graph: Response<seq<Node>>, versions: Response<seq<VersionsEntry>>,
                              projects: Response<seq<ProjectsEntry>>)
    requires Storage.Valid(st)
    requires Storage.ProjectId(st.projects, projectName, version).Some?
    requires Gather(graph, versions, projects).outcome.Ok?
    requires UniqueNames(Gather(graph, versions, projects).outcome.value)
    ensures FetchAndStoreProjectDependencies(st, projectName, version, now, graph, versions, projects).Ok?
    ensures var st' := FetchAndStoreProjectDependencies(st, projectName, version, now, graph, versions, projects).value;
      (forall n, v :: Storage.ProjectId(st'.projects, n, v) == Storage.ProjectId(st.projects, n, v)) &&
      Storage.ListProjectDependencies(st', projectName, version) ==
        Ok(Order.SortByName(StorageFacts.Reconciled(Storage.ListProjectDependencies(st, projectName, version).value,
                                                    Gather(graph, versions, projects).outcome.value))) &&
      (forall n, v :: (n, v) != (projectName, version) ==>
        Storage.ListProjectDependencies(st', n, v) == Storage.ListProjectDependencies(st, n, v))
  {
    var rec := ProjectDependencyRecord(Project(projectName, version, now), Gather(graph, versions, projects).outcome.value);
    StorageFacts.ReconcileExisting(st, rec);
    assert Storage.StoreDependencies(st, rec) == Storage.UpdateProject(st, rec);
  }

  // ---------------------------------------------------------------------
  // ListProjectVersions

  /** The version strings of the package lookup, in the order returned. */
  function ListProjectVersions(projectName: string, resp: Response<seq<VersionEntry>>): (r: Result<seq<string>>)
    ensures r.Ok? <==> resp.Fetched?
    ensures r.Ok? ==> |r.value| == |resp.data|
    ensures r.Ok? ==> forall i :: 0 <= i < |r.value| ==> r.value[i] == resp.data[i].version
    ensures r.Err? ==> (Is(r.error, ProjectNotFound) <==> resp.NotFound?)
  {
    match AsResult(resp)
    case Err(e) => Err(Wrapped("s.depsClient.GetProjectVersions() projectName: " + projectName, e))
    case Ok(vs) => Ok(seq(|vs|, i requires 0 <= i < |vs| => vs[i].version))
  }
}

=== FILE: storage.dfy ===
/** The SQLite storage of storage/storage.go as a state value.

    The `projects` and `dependency` tables are sequences of rows in rowid
    order; `nextId` is the AUTOINCREMENT counter of `projects.id`. `Valid`
    collects the constraints `createTable` declares. Every public operation
    runs in one transaction whose deferred rollback undoes everything on
    failure, so an operation is a function from the store to `Ok(new store)`
    or `Err(e)`, and on `Err` the caller keeps the store it had.
 */
module Storage {
  import opened Domain
  import opened Diff
  import Order
  import Seqs

  datatype ProjectRow = ProjectRow(id: int, name: string, version: string, updatedAt: int)
  datatype DependencyRow = DependencyRow(projectId: int, name: string, score: real, updatedAt: int)
  datatype Store = Store(projects: seq<ProjectRow>, dependencies: seq<DependencyRow>, nextId: int)

  /** A freshly created database. */
  const Empty: Store := Store([], [], 1)

  // ---------------------------------------------------------------------
  // Constraints of createTable

  /** `id INTEGER PRIMARY KEY AUTOINCREMENT`: ids are positive and below the counter. */
  predicate IdsInRange(st: Store)
  {
    0 < st.nextId && forall p :: p in st.projects ==> 0 < p.id < st.nextId
  }

  /** Primary key and `UNIQUE(name, version)`. */
  predicate ProjectsUnique(ps: seq<ProjectRow>)
  {
    forall i, j :: 0 <= i < j < |ps| ==>
      ps[i].id != ps[j].id && (ps[i].name, ps[i].version) != (ps[j].name, ps[j].version)
  }

  predicate IsProjectId(ps: seq<ProjectRow>, id: int)
  {
    exists p :: p in ps && p.id == id
  }

  /** `FOREIGN KEY (project_id) REFERENCES projects(id)`. */
  predicate ForeignKeys(st: Store)
  {
    forall r :: r in st.dependencies ==> IsProjectId(st.projects, r.projectId)
  }

  /** `UNIQUE(project_id, dependency_name)`. */
  predicate DependenciesUnique(rows: seq<DependencyRow>)
  {
    forall i, j :: 0 <= i < j < |rows| ==>
      (rows[i].projectId, rows[i].name) != (rows[j].projectId, rows[j].name)
  }

  predicate Valid(st: Store)
  {
    IdsInRange(st) && ProjectsUnique(st.projects) && ForeignKeys(st) && DependenciesUnique(st.dependencies)
  }

  // ---------------------------------------------------------------------
  // Row-level helpers

  /** getProjectID: `SELECT id FROM projects WHERE name = ? AND version = ?`. */
  function ProjectId(ps: seq<ProjectRow>, name: string, version: string): (r: Option<int>)
    ensures r.None? <==> !exists p :: p in ps && p.name == name && p.version == version
    ensures r.Some? ==> exists p :: p in ps && p.name == name && p.version == version && p.id == r.value
  {
    if |ps| == 0 then None
    else if ps[0].name == name && ps[0].version == version then Some(ps[0].id)
    else
      assert ps == [ps[0]] + ps[1..];
      ProjectId(ps[1..], name, version)
  }

  function AsDependency(r: DependencyRow): Dependency
  {
    Dependency(r.score, r.name, r.updatedAt)
  }

  function ToRow(pid: int, d: Dependency): DependencyRow
  {
    DependencyRow(pid, d.name, d.score, d.updatedAt)
  }

  function ToRows(pid: int, ds: seq<Dependency>): (r: seq<DependencyRow>)
    ensures |r| == |ds|
  {
    if |ds| == 0 then [] else ToRows(pid, ds[..|ds|-1]) + [ToRow(pid, ds[|ds|-1])]
  }

  /** `SELECT dependency_name, score, updated_at FROM dependency WHERE project_id = ?`. */
  function RowsOf(rows: seq<DependencyRow>, pid: int): seq<Dependency>
  {
    if |rows| == 0 then []
    else RowsOf(rows[..|rows|-1], pid) +
         (if rows[|rows|-1].projectId == pid then [AsDependency(rows[|rows|-1])] else [])
  }

  predicate HasRow(rows: seq<DependencyRow>, pid: int, name: string)
  {
    exists r :: r in rows && r.projectId == pid && r.name == name
  }

  function NameSet(ds: seq<Dependency>): set<string>
  {
    set d | d in ds :: d.name
  }

  /** The rows that survive deleting the names `names` from project `pid`. */
  function KeepRows(rows: seq<DependencyRow>, pid: int, names: set<string>): seq<DependencyRow>
  {
    Seqs.Filter(rows, (r: DependencyRow) => !(r.projectId == pid && r.name in names))
  }

  /** The entries of `ds` whose names are not in `names`. */
  function KeepNames(ds: seq<Dependency>, names: set<string>): seq<Dependency>
  {
    Seqs.Filter(ds, (d: Dependency) => d.name !in names)
  }

  /** `ON DELETE CASCADE`: the rows left once project `pid` is gone. */
  function DropProjectRows(rows: seq<DependencyRow>, pid: int): seq<DependencyRow>
  {
    Seqs.Filter(rows, (r: DependencyRow) => r.projectId != pid)
  }

  function RemoveProject(ps: seq<ProjectRow>, id: int): seq<ProjectRow>
  {
    Seqs.Filter(ps, (p: ProjectRow) => p.id != id)
  }

  /** `UPDATE projects SET updated_at = ? WHERE id = ?`. */
  function Touch(ps: seq<ProjectRow>, id: int, t: int): seq<ProjectRow>
  {
    seq(|ps|, i requires 0 <= i < |ps| => if ps[i].id == id then ps[i].(updatedAt := t) else ps[i])
  }

  function AsProject(p: ProjectRow): Project
  {
    Project(p.name, p.version, p.updatedAt)
  }

  /** One `INSERT INTO dependency` per entry of `ds`, in order, each rejected
      by `UNIQUE(project_id, dependency_name)` when the project already has
      a row of that name: the first rejection aborts with its error. */
  function InsertDependencies(rows: seq<DependencyRow>, pid: int, ds: seq<Dependency>)
    : (r: Result<seq<DependencyRow>>)
    ensures r.Ok? <==> UniqueNames(ds) && forall d :: d in ds ==> !HasRow(rows, pid, d.name)
    ensures r.Ok? ==> r.value == rows + ToRows(pid, ds)
    ensures r.Err? ==> exists d :: d in ds && r.error == UniqueViolation(d.name)
  {
    if |ds| == 0 then Ok(rows)
    else
      var last := ds[|ds|-1];
      var init := ds[..|ds|-1];
      assert last in ds;
      match InsertDependencies(rows, pid, init)
      case Err(e) =>
        InsertAfterFailure(rows, pid, ds);
        Err(e)
      case Ok(prefix) =>
        if HasRow(prefix, pid, last.name) then
          InsertClash(rows, pid, ds);
          Err(UniqueViolation(last.name))
        else
          InsertFits(rows, pid, ds);
          assert ToRows(pid, ds) == ToRows(pid, init) + [ToRow(pid, last)];
          Ok(prefix + [ToRow(pid, last)])
  }

  /** Every name of `ds` is new to project `pid` and to the rest of `ds`. */
  predicate Insertable(rows: seq<DependencyRow>, pid: int, ds: seq<Dependency>)
  {
    UniqueNames(ds) && forall d :: d in ds ==> !HasRow(rows, pid, d.name)
  }

  lemma InsertAfterFailure(rows: seq<DependencyRow>, pid: int, ds: seq<Dependency>)
    requires |ds| > 0 && !Insertable(rows, pid, ds[..|ds|-1])
    ensures !Insertable(rows, pid, ds)
  {
    var init := ds[..|ds|-1];
    if Insertable(rows, pid, ds) {
      forall i, j | 0 <= i < j < |init| ensures init[i].name != init[j].name {
        assert init[i] == ds[i] && init[j] == ds[j];
      }
      forall d | d in init ensures !HasRow(rows, pid, d.name) {
        assert d in ds;
      }
    }
  }

  lemma InsertClash(rows: seq<DependencyRow>, pid: int, ds: seq<Dependency>)
    requires |ds| > 0 && Insertable(rows, pid, ds[..|ds|-1])
    requires HasRow(rows + ToRows(pid, ds[..|ds|-1]), pid, ds[|ds|-1].name)
    ensures !Insertable(rows, pid, ds)
  {
    var init, last := ds[..|ds|-1], ds[|ds|-1];
    var w :| w in rows + ToRows(pid, init) && w.projectId == pid && w.name == last.name;
    if w in rows {
      assert HasRow(rows, pid, last.name) && last in ds;
    } else {
      InsertedRow(pid, init, w);
      var k :| 0 <= k < |init| && init[k].name == last.name;
      assert ds[k].name == ds[|ds|-1].name;
    }
  }

  lemma HasRowConcat(a: seq<DependencyRow>, b: seq<DependencyRow>, pid: int, n: string)
    ensures HasRow(a + b, pid, n) <==> HasRow(a, pid, n) || HasRow(b, pid, n)
  {
    if HasRow(a + b, pid, n) {
      var w :| w in a + b && w.projectId == pid && w.name == n;
      assert w in a || w in b;
    }
    if HasRow(a, pid, n) {
      var w :| w in a && w.projectId == pid && w.name == n;
      assert w in a + b;
    }
    if HasRow(b, pid, n) {
      var w :| w in b && w.projectId == pid && w.name == n;
      assert w in a + b;
    }
  }

  lemma InsertFits(rows: seq<DependencyRow>, pid: int, ds: seq<Dependency>)
    requires |ds| > 0 && Insertable(rows, pid, ds[..|ds|-1])
    requires !HasRow(rows + ToRows(pid, ds[..|ds|-1]), pid, ds[|ds|-1].name)
    ensures Insertable(rows, pid, ds)
  {
    var init, last := ds[..|ds|-1], ds[|ds|-1];
    HasRowConcat(rows, ToRows(pid, init), pid, last.name);
    ToRowsHasName(pid, init, last.name);
    UniqueSnoc(init, last);
    assert ds == init + [last];
    forall d | d in ds ensures !HasRow(rows, pid, d.name) {
      assert d in init || d == last;
    }
  }

  /** Appending an entry whose name is new keeps names unique. */
  lemma UniqueSnoc(init: seq<Dependency>, last: Dependency)
    requires UniqueNames(init) && !HasName(init, last.name)
    ensures UniqueNames(init + [last])
  {
    var ds := init + [last];
    forall i, j | 0 <= i < j < |ds| ensures ds[i].name != ds[j].name {
      assert ds[i] == init[i];
      if j == |init| {
        assert init[i] in init;
      } else {
        assert ds[j] == init[j];
      }
    }
  }

  lemma {:induction false} InsertedRow(pid: int, ds: seq<Dependency>, w: DependencyRow)
    requires w in ToRows(pid, ds)
    ensures exists k :: 0 <= k < |ds| && ds[k].name == w.name
  {
    var init := ds[..|ds|-1];
    if w in ToRows(pid, init) {
      InsertedRow(pid, init, w);
      var k :| 0 <= k < |init| && init[k].name == w.name;
      assert ds[k] == init[k];
    } else {
      assert ds[|ds|-1].name == w.name;
    }
  }

  lemma {:induction false} ToRowsHasName(pid: int, ds: seq<Dependency>, n: string)
    ensures HasRow(ToRows(pid, ds), pid, n) <==> HasName(ds, n)
  {
    if |ds| > 0 {
      var init := ds[..|ds|-1];
      ToRowsHasName(pid, init, n);
      assert ds == init + [ds[|ds|-1]];
      if HasName(ds, n) && !HasName(init, n) {
        assert ToRow(pid, ds[|ds|-1]) in ToRows(pid, ds);
      }
      if HasRow(ToRows(pid, ds), pid, n) && !HasRow(ToRows(pid, init), pid, n) {
        assert ds[|ds|-1] in ds;
      }
    }
  }

  /** deleteDependenciesFromProject: one `DELETE ... WHERE project_id = ? AND
      dependency_name = ?` per entry of `toDel`, in order. */
  function DeleteDependenciesFromProject(rows: seq<DependencyRow>, pid: int, toDel: seq<Dependency>)
    : (r: seq<DependencyRow>)
    ensures r == KeepRows(rows, pid, NameSet(toDel))
  {
    if |toDel| == 0 then
      Seqs.FilterKeepsAll(rows, (r: DependencyRow) => !(r.projectId == pid && r.name in NameSet(toDel)));
      rows
    else
      var init := toDel[..|toDel|-1];
      var once := DeleteDependenciesFromProject(rows, pid, init);
      assert toDel == init + [toDel[|toDel|-1]];
      assert NameSet(toDel) == NameSet(init) + {toDel[|toDel|-1].name};
      KeepRowsTwice(rows, pid, NameSet(init), {toDel[|toDel|-1].name});
      KeepRows(once, pid, {toDel[|toDel|-1].name})
  }

  lemma {:induction false} KeepRowsTwice(rows: seq<DependencyRow>, pid: int, a: set<string>, b: set<string>)
    ensures KeepRows(KeepRows(rows, pid, a), pid, b) == KeepRows(rows, pid, a + b)
  {
    if |rows| > 0 {
      var init := rows[..|rows|-1];
      KeepRowsTwice(init, pid, a, b);
      var r := rows[|rows|-1];
      Seqs.FilterConcat(KeepRows(init, pid, a), if !(r.projectId == pid && r.name in a) then [r] else [],
                        (x: DependencyRow) => !(x.projectId == pid && x.name in b));
    }
  }

  // ---------------------------------------------------------------------
  // Operations

  /** StoreDependencies: `INSERT OR IGNORE` the project row; if a row for
      (name, version) already existed, roll back and reconcile through
      UpdateProject; otherwise insert every dependency of the record. */
  function StoreDependencies(st: Store, rec: ProjectDependencyRecord): (r: Result<Store>)
    ensures Valid(st) && r.Ok? ==> Valid(r.value)
    ensures Valid(st) && ProjectId(st.projects, rec.project.name, rec.project.version).None? ==>
      (r.Ok? <==> UniqueNames(rec.dependencies))
  {
    var p := rec.project;
    match ProjectId(st.projects, p.name, p.version)
    case Some(_) =>
      (match UpdateProject(st, rec)
       case Ok(st') => Ok(st')
       case Err(e) => Err(Wrapped("s.UpdateProject(project)", e)))
    case None =>
      var id := st.nextId;
      var projects := st.projects + [ProjectRow(id, p.name, p.version, p.updatedAt)];
      FreshIdHasNoRows(st);
      match InsertDependencies(st.dependencies, id, rec.dependencies)
      case Ok(rows) =>
        var st' := Store(projects, rows, id + 1);
        assert Valid(st) ==> Valid(st') by {
          if Valid(st) { NewProjectValid(st, rec, st'); }
        }
        Ok(st')
      case Err(e) => Err(Wrapped("preparedDependency.Exec()", e))
  }

  /** The next AUTOINCREMENT id owns no dependency row yet. */
  lemma FreshIdHasNoRows(st: Store)
    ensures Valid(st) ==> forall n :: !HasRow(st.dependencies, st.nextId, n)
  {
    if Valid(st) {
      forall w | w in st.dependencies ensures w.projectId != st.nextId {
        assert IsProjectId(st.projects, w.projectId);
      }
    }
  }

  lemma NewProjectValid(st: Store, rec: ProjectDependencyRecord, st': Store)
    requires Valid(st)
    requires ProjectId(st.projects, rec.project.name, rec.project.version).None?
    requires UniqueNames(rec.dependencies)
    requires st' == Store(st.projects + [ProjectRow(st.nextId, rec.project.name, rec.project.version, rec.project.updatedAt)],
                          st.dependencies + ToRows(st.nextId, rec.dependencies), st.nextId + 1)
    ensures Valid(st')
  {
    var id := st.nextId;
    var row := ProjectRow(id, rec.project.name, rec.project.version, rec.project.updatedAt);
    assert row in st'.projects;
    forall i, j | 0 <= i < j < |st'.projects|
      ensures st'.projects[i].id != st'.projects[j].id
      ensures (st'.projects[i].name, st'.projects[i].version) != (st'.projects[j].name, st'.projects[j].version)
    {
      if j == |st.projects| {
        assert st'.projects[i] in st.projects;
      }
    }
    forall r | r in st'.dependencies ensures IsProjectId(st'.projects, r.projectId) {
      if r !in st.dependencies {
        ToRowsProjectId(id, rec.dependencies, r);
      }
    }
    forall i, j | 0 <= i < j < |st'.dependencies|
      ensures (st'.dependencies[i].projectId, st'.dependencies[i].name) != (st'.dependencies[j].projectId, st'.dependencies[j].name)
    {
      var n := |st.dependencies|;
      var added := ToRows(id, rec.dependencies);
      if j >= n {
        assert st'.dependencies[j] == added[j - n];
        ToRowsProjectId(id, rec.dependencies, added[j - n]);
        if i < n {
          assert st'.dependencies[i] in st.dependencies;
        } else {
          assert st'.dependencies[i] == added[i - n];
          ToRowsIndex(id, rec.dependencies, i - n);
          ToRowsIndex(id, rec.dependencies, j - n);
        }
      }
    }
  }

  lemma {:induction false} ToRowsProjectId(pid: int, ds: seq<Dependency>, r: DependencyRow)
    requires r in ToRows(pid, ds)
    ensures r.projectId == pid
  {
    if r in ToRows(pid, ds[..|ds|-1]) {
      ToRowsProjectId(pid, ds[..|ds|-1], r);
    }
  }

  lemma {:induction false} ToRowsIndex(pid: int, ds: seq<Dependency>, k: int)
    requires 0 <= k < |ds|
    ensures |ToRows(pid, ds)| == |ds| && ToRows(pid, ds)[k] == ToRow(pid, ds[k])
  {
    var init := ds[..|ds|-1];
    if k < |init| {
      ToRowsIndex(pid, init, k);
    } else if |init| > 0 {
      ToRowsIndex(pid, init, 0);
    }
  }

  /** UpdateProject: reconcile an existing project with the record. The
      stored rows are diffed against the incoming list; the project's
      timestamp is set; every onlyA name is deleted and every onlyB entry is
      inserted. When both sides of the diff are empty only the timestamp
      changes. */
  function UpdateProject(st: Store, rec: ProjectDependencyRecord): (r: Result<Store>)
    ensures ProjectId(st.projects, rec.project.name, rec.project.version).None? ==>
      r.Err? && Is(r.error, ProjectNotFound)
    ensures Valid(st) && r.Ok? ==> Valid(r.value)
    ensures (ProjectId(st.projects, rec.project.name, rec.project.version).Some? &&
             Diff.Diff(RowsOf(st.dependencies, ProjectId(st.projects, rec.project.name, rec.project.version).value),
                       rec.dependencies) == ([], [])) ==>
      r == Ok(st.(projects := Touch(st.projects, ProjectId(st.projects, rec.project.name, rec.project.version).value,
                                    rec.project.updatedAt)))
  {
    match ProjectId(st.projects, rec.project.name, rec.project.version)
    case None => Err(Wrapped("s.getProjectIDTX()", ProjectNotFound))
    case Some(pid) =>
      var current := RowsOf(st.dependencies, pid);
      var projects := Touch(st.projects, pid, rec.project.updatedAt);
      var (toDel, toAdd) := Diff.Diff(current, rec.dependencies);
      if |toAdd| == 0 && |toDel| == 0 then
        var st' := st.(projects := projects);
        assert Valid(st) ==> Valid(st') by {
          if Valid(st) { TouchValid(st, pid, rec.project.updatedAt); }
        }
        Ok(st')
      else
        var kept := DeleteDependenciesFromProject(st.dependencies, pid, toDel);
        match InsertDependencies(kept, pid, toAdd)
        case Ok(rows) =>
          var st' := Store(projects, rows, st.nextId);
          assert Valid(st) ==> Valid(st') by {
            if Valid(st) {
              TouchValid(st, pid, rec.project.updatedAt);
              ReplaceRowsValid(st.(projects := projects), pid, NameSet(toDel), toAdd);
            }
          }
          Ok(st')
        case Err(e) => Err(Wrapped("stmt.Exec(projectId, dep.Name, dep.Score)", e))
  }

  lemma TouchValid(st: Store, id: int, t: int)
    requires Valid(st)
    ensures Valid(st.(projects := Touch(st.projects, id, t)))
    ensures forall k :: IsProjectId(st.projects, k) ==> IsProjectId(Touch(st.projects, id, t), k)
  {
    var ps := Touch(st.projects, id, t);
    forall p | p in st.projects ensures exists q :: q in ps && q.id == p.id {
      var i :| 0 <= i < |st.projects| && st.projects[i] == p;
      assert ps[i].id == p.id;
    }
  }

  /** Deleting names of project `pid` and appending fresh rows for it keeps
      the constraints, provided the insert was accepted. */
  lemma ReplaceRowsValid(st: Store, pid: int, names: set<string>, add: seq<Dependency>)
    requires Valid(st) && IsProjectId(st.projects, pid)
    requires UniqueNames(add)
    requires forall d :: d in add ==> !HasRow(KeepRows(st.dependencies, pid, names), pid, d.name)
    ensures Valid(st.(dependencies := KeepRows(st.dependencies, pid, names) + ToRows(pid, add)))
  {
    var kept := KeepRows(st.dependencies, pid, names);
    var rows := kept + ToRows(pid, add);
    KeepRowsUnique(st.dependencies, pid, names);
    forall r | r in rows ensures IsProjectId(st.projects, r.projectId) {
      if r !in kept { ToRowsProjectId(pid, add, r); }
    }
    forall i, j | 0 <= i < j < |rows|
      ensures (rows[i].projectId, rows[i].name) != (rows[j].projectId, rows[j].name)
    {
      var n := |kept|;
      var added := ToRows(pid, add);
      if j >= n {
        assert rows[j] == added[j - n];
        ToRowsIndex(pid, add, j - n);
        if i < n {
          assert rows[i] in kept;
          assert add[j - n] in add;
        } else {
          ToRowsIndex(pid, add, i - n);
        }
      }
    }
  }

  lemma KeepRowsUnique(rows: seq<DependencyRow>, pid: int, names: set<string>)
    requires DependenciesUnique(rows)
    ensures DependenciesUnique(KeepRows(rows, pid, names))
    ensures forall r :: r in KeepRows(rows, pid, names) <==> r in rows && !(r.projectId == pid && r.name in names)
  {
    Seqs.FilterPairwise(rows, (r: DependencyRow) => !(r.projectId == pid && r.name in names),
      (x: DependencyRow, y: DependencyRow) => (x.projectId, x.name) != (y.projectId, y.name));
  }

  /** DeleteProject: remove the project row; the cascade removes its rows. */
  function DeleteProject(st: Store, name: string, version: string): (r: Result<Store>)
    ensures r.Err? <==> ProjectId(st.projects, name, version).None?
    ensures r.Err? ==> Is(r.error, ProjectNotFound)
    ensures Valid(st) && r.Ok? ==> Valid(r.value)
  {
    match ProjectId(st.projects, name, version)
    case None => Err(Wrapped("s.getProjectIDTX()", ProjectNotFound))
    case Some(pid) =>
      var st' := Store(RemoveProject(st.projects, pid), DropProjectRows(st.dependencies, pid), st.nextId);
      assert Valid(st) ==> Valid(st') by {
        if Valid(st) {
          Seqs.FilterPairwise(st.projects, (p: ProjectRow) => p.id != pid,
            (x: ProjectRow, y: ProjectRow) => x.id != y.id && (x.name, x.version) != (y.name, y.version));
          Seqs.FilterPairwise(st.dependencies, (r: DependencyRow) => r.projectId != pid,
            (x: DependencyRow, y: DependencyRow) => (x.projectId, x.name) != (y.projectId, y.name));
          forall r | r in st'.dependencies ensures IsProjectId(st'.projects, r.projectId) {
            var q :| q in st.projects && q.id == r.projectId;
            assert q in st'.projects;
          }
        }
      }
      Ok(st')
  }

  /** ListProjectDependencies: the project's rows, or ErrProjectNotFound.
      The query has no `ORDER BY`; SQLite answers `WHERE project_id = ?`
      through the `UNIQUE(project_id, dependency_name)` index, so the rows
      come back in name order. */
  function ListProjectDependencies(st: Store, name: string, version: string): (r: Result<seq<Dependency>>)
    ensures r.Err? <==> ProjectId(st.projects, name, version).None?
    ensures r.Err? ==> Is(r.error, ProjectNotFound)
    ensures r.Ok? ==> Order.NamesSorted(r.value)
    ensures r.Ok? ==> multiset(r.value) == multiset(RowsOf(st.dependencies, ProjectId(st.projects, name, version).value))
    ensures Valid(st) && r.Ok? ==> UniqueNames(r.value)
  {
    match ProjectId(st.projects, name, version)
    case None => Err(Wrapped("s.getProjectID()", ProjectNotFound))
    case Some(pid) =>
      var listed := Order.SortByName(RowsOf(st.dependencies, pid));
      assert Valid(st) ==> UniqueNames(listed) by {
        if Valid(st) {
          RowsOfUnique(st.dependencies, pid);
          Diff.UniquePermutation(RowsOf(st.dependencies, pid), listed);
        }
      }
      Ok(listed)
  }

  lemma {:induction false} RowsOfUnique(rows: seq<DependencyRow>, pid: int)
    requires DependenciesUnique(rows)
    ensures UniqueNames(RowsOf(rows, pid))
  {
    if |rows| > 0 {
      var init := rows[..|rows|-1];
      var last := rows[|rows|-1];
      RowsOfUnique(init, pid);
      if last.projectId == pid {
        var a := RowsOf(init, pid);
        forall i | 0 <= i < |a| ensures a[i].name != last.name {
          RowsOfSource(init, pid, a[i]);
          var w :| w in init && w.projectId == pid && AsDependency(w) == a[i];
          var k :| 0 <= k < |init| && init[k] == w;
          assert rows[k] == w;
        }
      }
    }
  }

  /** Every listed entry comes from a row of that project. */
  lemma {:induction false} RowsOfSource(rows: seq<DependencyRow>, pid: int, d: Dependency)
    requires d in RowsOf(rows, pid)
    ensures exists w :: w in rows && w.projectId == pid && AsDependency(w) == d
  {
    var init := rows[..|rows|-1];
    if d in RowsOf(init, pid) {
      RowsOfSource(init, pid, d);
      var w :| w in init && w.projectId == pid && AsDependency(w) == d;
      assert w in rows;
    } else {
      assert rows[|rows|-1] in rows;
    }
  }

  /** ListProjects: every project row, in rowid order. */
  function ListProjects(st: Store): (r: seq<Project>)
    ensures |r| == |st.projects|
    ensures forall i :: 0 <= i < |r| ==> r[i] == AsProject(st.projects[i])
    ensures forall n, v :: ProjectId(st.projects, n, v).Some? <==>
      exists i :: 0 <= i < |r| && r[i].name == n && r[i].version == v
    ensures Valid(st) ==> forall i, j :: 0 <= i < j < |r| ==> (r[i].name, r[i].version) != (r[j].name, r[j].version)
  {
    var r := seq(|st.projects|, i requires 0 <= i < |st.projects| => AsProject(st.projects[i]));
    forall n, v ensures ProjectId(st.projects, n, v).Some? <==>
      exists i :: 0 <= i < |r| && r[i].name == n && r[i].version == v
    {
      if ProjectId(st.projects, n, v).Some? {
        var p :| p in st.projects && p.name == n && p.version == v;
        var i :| 0 <= i < |st.projects| && st.projects[i] == p;
        assert r[i].name == n && r[i].version == v;
      }
      if exists i :: 0 <= i < |r| && r[i].name == n && r[i].version == v {
        var i :| 0 <= i < |r| && r[i].name == n && r[i].version == v;
        assert st.projects[i] in st.projects;
      }
    }
    r
  }

  /** The projects with a dependency row named `depName`, in rowid order. */
  function ProjectsWith(st: Store, depName: string): seq<Project>
  {
    Seqs.Filter(ListProjects(st), (p: Project) => ProjectHas(st, p, depName))
  }

  predicate ProjectHas(st: Store, p: Project, depName: string)
  {
    exists row :: row in st.projects && AsProject(row) == p && HasRow(st.dependencies, row.id, depName)
  }

  /** GetProjectsByDependency: the distinct projects that have a dependency
      named exactly `depName`, ordered by (name, version); none at all is
      ErrProjectNotFound. */
  function GetProjectsByDependency(st: Store, depName: string): (r: Result<seq<Project>>)
    ensures r.Err? <==> forall p :: p in st.projects ==> !HasRow(st.dependencies, p.id, depName)
    ensures r.Err? ==> r.error == ProjectNotFound
    ensures r.Ok? ==> Order.ProjectsSorted(r.value)
    ensures r.Ok? ==> forall p :: p in r.value <==> ProjectHas(st, p, depName)
    ensures Valid(st) && r.Ok? ==> Seqs.Distinct(r.value)
  {
    var candidates := ProjectsWith(st, depName);
    var sorted := Order.SortProjects(candidates);
    SameMembers(candidates, sorted);
    ProjectsWithMembers(st, depName);
    NoCandidates(st, depName);
    if |sorted| == 0 then Err(ProjectNotFound)
    else
      CandidatesDistinct(st, depName, sorted);
      Ok(sorted)
  }

  /** The join holds exactly the projects with a row named `depName`. */
  lemma ProjectsWithMembers(st: Store, depName: string)
    ensures forall p :: p in ProjectsWith(st, depName) <==> ProjectHas(st, p, depName)
  {
    forall p | ProjectHas(st, p, depName) ensures p in ListProjects(st) {
      var row :| row in st.projects && AsProject(row) == p && HasRow(st.dependencies, row.id, depName);
      var i :| 0 <= i < |st.projects| && st.projects[i] == row;
      assert ListProjects(st)[i] == p;
    }
  }

  lemma SameMembers(s: seq<Project>, t: seq<Project>)
    requires multiset(s) == multiset(t)
    ensures |s| == |t|
    ensures forall p :: p in t <==> p in s
  {
    assert |s| == |multiset(s)| == |multiset(t)| == |t|;
    forall p ensures p in t <==> p in s {
      assert p in t <==> p in multiset(t);
      assert p in s <==> p in multiset(s);
    }
  }

  /** The join is empty iff no project has a row named `depName`. */
  lemma NoCandidates(st: Store, depName: string)
    ensures (forall p :: p in st.projects ==> !HasRow(st.dependencies, p.id, depName)) <==>
      |ProjectsWith(st, depName)| == 0
  {
    var candidates := ProjectsWith(st, depName);
    forall row | row in st.projects && HasRow(st.dependencies, row.id, depName)
      ensures AsProject(row) in candidates
    {
      var i :| 0 <= i < |st.projects| && st.projects[i] == row;
      assert ListProjects(st)[i] == AsProject(row);
    }
    if |candidates| > 0 {
      assert candidates[0] in candidates;
    }
  }

  lemma CandidatesDistinct(st: Store, depName: string, sorted: seq<Project>)
    requires multiset(sorted) == multiset(ProjectsWith(st, depName))
    ensures Valid(st) ==> Seqs.Distinct(sorted)
  {
    if Valid(st) {
      ListProjectsDistinct(st);
      Seqs.FilterPairwise(ListProjects(st), (p: Project) => ProjectHas(st, p, depName),
        (x: Project, y: Project) => x != y);
      Seqs.DistinctPermutation(ProjectsWith(st, depName), sorted);
    }
  }

  lemma ListProjectsDistinct(st: Store)
    requires ProjectsUnique(st.projects)
    ensures Seqs.Distinct(ListProjects(st))
  {
  }

  /** The names of rows whose score lies in [score - Eps, score + Eps]. */
  function NamesNearScore(rows: seq<DependencyRow>, score: real): seq<string>
  {
    if |rows| == 0 then []
    else
      var last := rows[|rows|-1];
      NamesNearScore(rows[..|rows|-1], score) +
        (if score - Eps <= last.score <= score + Eps then [last.name] else [])
  }

  predicate NearScore(st: Store, name: string, score: real)
  {
    exists row :: row in st.dependencies && row.name == name && score - Eps <= row.score <= score + Eps
  }

  /** GetDependenciesByExactScore: the distinct names, across all projects,
      whose stored score is within Eps of `score`, in ascending order. An
      empty result is not an error. */
  function GetDependenciesByExactScore(st: Store, score: real): (r: seq<string>)
    ensures Order.StrictlyIncreasing(r)
    ensures forall n :: n in r <==> NearScore(st, n, score)
  {
    NamesNearScoreMembers(st.dependencies, score);
    Order.SortDistinct(NamesNearScore(st.dependencies, score))
  }

  lemma {:induction false} NamesNearScoreMembers(rows: seq<DependencyRow>, score: real)
    ensures forall n :: n in NamesNearScore(rows, score) <==>
      exists row :: row in rows && row.name == n && score - Eps <= row.score <= score + Eps
  {
    if |rows| > 0 {
      var init := rows[..|rows|-1];
      NamesNearScoreMembers(init, score);
      assert rows == init + [rows[|rows|-1]];
    }
  }

  // ---------------------------------------------------------------------
  // Manual single-dependency edits

  /** AddDependency as written: a plain INSERT, so an existing name fails on
      the unique constraint and the `RowsAffected() == 0` branch that would
      return ErrDependencyAlreadyExists is never reached. */
  function AddDependencyAsWritten(st: Store, name: string, version: string, dep: Dependency)
    : (r: Result<Store>)
    ensures ProjectId(st.projects, name, version).None? ==> r.Err? && Is(r.error, ProjectNotFound)
    ensures r.Err? ==> !Is(r.error, DependencyAlreadyExists)
    ensures ProjectId(st.projects, name, version).Some? ==>
      (r.Err? <==> HasRow(st.dependencies, ProjectId(st.projects, name, version).value, dep.name))
    ensures r.Ok? ==> r == AddDependency(st, name, version, dep)
    ensures Valid(st) && r.Ok? ==> Valid(r.value)
  {
    match ProjectId(st.projects, name, version)
    case None => Err(Wrapped("getProjectIDTX", ProjectNotFound))
    case Some(pid) =>
      if HasRow(st.dependencies, pid, dep.name) then
        Err(Wrapped("INSERT dependency", UniqueViolation(dep.name)))
      else
        var r := AddDependency(st, name, version, dep);
        assert r == Ok(st.(dependencies := st.dependencies + [ToRow(pid, dep)]));
        r
  }

  /** AddDependency as evidently intended: an existing (project, name) pair
      is reported as ErrDependencyAlreadyExists. */
  function AddDependency(st: Store, name: string, version: string, dep: Dependency)
    : (r: Result<Store>)
    ensures ProjectId(st.projects, name, version).None? ==> r.Err? && Is(r.error, ProjectNotFound)
    ensures ProjectId(st.projects, name, version).Some? ==>
      (r.Err? <==> HasRow(st.dependencies, ProjectId(st.projects, name, version).value, dep.name))
    ensures r.Err? && ProjectId(st.projects, name, version).Some? ==> r.error == DependencyAlreadyExists
    ensures r.Ok? ==> r.value.projects == st.projects
    ensures r.Ok? ==>
      r.value.dependencies == st.dependencies + [ToRow(ProjectId(st.projects, name, version).value, dep)]
    ensures Valid(st) && r.Ok? ==> Valid(r.value)
  {
    match ProjectId(st.projects, name, version)
    case None => Err(Wrapped("getProjectIDTX", ProjectNotFound))
    case Some(pid) =>
      if HasRow(st.dependencies, pid, dep.name) then Err(DependencyAlreadyExists)
      else
        var st' := st.(dependencies := st.dependencies + [ToRow(pid, dep)]);
        assert Valid(st) ==> Valid(st') by {
          if Valid(st) {
            forall i | 0 <= i < |st.dependencies|
              ensures (st.dependencies[i].projectId, st.dependencies[i].name) != (pid, dep.name)
            {
              assert st.dependencies[i] in st.dependencies;
            }
          }
        }
        Ok(st')
  }

  /** DeleteDependency: remove the one row (project, depName). */
  function DeleteDependency(st: Store, name: string, version: string, depName: string)
    : (r: Result<Store>)
    ensures ProjectId(st.projects, name, version).None? ==> r.Err? && Is(r.error, ProjectNotFound)
    ensures ProjectId(st.projects, name, version).Some? ==>
      var pid := ProjectId(st.projects, name, version).value;
      (r.Err? <==> !HasRow(st.dependencies, pid, depName)) &&
      (r.Err? ==> r.error == DependencyNotFound) &&
      (r.Ok? ==> r.value == st.(dependencies := KeepRows(st.dependencies, pid, {depName})))
    ensures Valid(st) && r.Ok? ==> Valid(r.value)
  {
    match ProjectId(st.projects, name, version)
    case None => Err(Wrapped("getProjectIDTX", ProjectNotFound))
    case Some(pid) =>
      if !HasRow(st.dependencies, pid, depName) then Err(DependencyNotFound)
      else
        var st' := st.(dependencies := KeepRows(st.dependencies, pid, {depName}));
        assert Valid(st) ==> Valid(st') by {
          if Valid(st) {
            KeepRowsUnique(st.dependencies, pid, {depName});
          }
        }
        Ok(st')
  }

  /** One row after `UPDATE dependency SET score = ?, updated_at = ?
      WHERE project_id = ? AND dependency_name = ?`. */
  function Updated(row: DependencyRow, pid: int, dep: Dependency): DependencyRow
  {
    if row.projectId == pid && row.name == dep.name
    then row.(score := dep.score, updatedAt := dep.updatedAt) else row
  }

  function SetDependency(rows: seq<DependencyRow>, pid: int, dep: Dependency): seq<DependencyRow>
  {
    seq(|rows|, i requires 0 <= i < |rows| => Updated(rows[i], pid, dep))
  }

  /** UpdateDependency: overwrite the score and timestamp of the one row
      (project, dep.name); every other row stays as it was. */
  function UpdateDependency(st: Store, name: string, version: string, dep: Dependency)
    : (r: Result<Store>)
    ensures ProjectId(st.projects, name, version).None? ==> r.Err? && Is(r.error, ProjectNotFound)
    ensures ProjectId(st.projects, name, version).Some? ==>
      var pid := ProjectId(st.projects, name, version).value;
      (r.Err? <==> !HasRow(st.dependencies, pid, dep.name)) &&
      (r.Err? ==> r.error == DependencyNotFound) &&
      (r.Ok? ==> r.value.projects == st.projects && |r.value.dependencies| == |st.dependencies|) &&
      (r.Ok? ==> forall i :: 0 <= i < |st.dependencies| ==>
         r.value.dependencies[i] == Updated(st.dependencies[i], pid, dep))
    ensures Valid(st) && r.Ok? ==> Valid(r.value)
  {
    match ProjectId(st.projects, name, version)
    case None => Err(Wrapped("getProjectIDTX", ProjectNotFound))
    case Some(pid) =>
      if !HasRow(st.dependencies, pid, dep.name) then Err(DependencyNotFound)
      else
        var st' := st.(dependencies := SetDependency(st.dependencies, pid, dep));
        assert Valid(st) ==> Valid(st') by {
          if Valid(st) {
            forall r | r in st'.dependencies ensures IsProjectId(st.projects, r.projectId) {
              var i :| 0 <= i < |st'.dependencies| && st'.dependencies[i] == r;
              assert st.dependencies[i] in st.dependencies;
            }
            forall i, j | 0 <= i < j < |st'.dependencies|
              ensures (st'.dependencies[i].projectId, st'.dependencies[i].name)
                   != (st'.dependencies[j].projectId, st'.dependencies[j].name)
            {
              assert st'.dependencies[i] == Updated(st.dependencies[i], pid, dep);
              assert st'.dependencies[j] == Updated(st.dependencies[j], pid, dep);
            }
          }
        }
        Ok(st')
  }
}

=== FILE: storage_facts.dfy ===
/** What the storage operations mean when seen through the listing
    operations: reconcile, cascade delete, and the single-dependency edits
    with their inverses. */
module StorageFacts {
  import opened Domain
  import opened Diff
  import opened Storage
  import Seqs
  import Order

  /** The dependency list UpdateProject leaves for a project whose stored
      list is `cur` when it is given `inc`: the stored entries the diff did
      not delete, in stored order, then the incoming entries the diff
      inserted, in incoming order. */
  function Reconciled(cur: seq<Dependency>, inc: seq<Dependency>): seq<Dependency>
  {
    KeepNames(cur, NameSet(OnlyIn(cur, inc))) + OnlyIn(inc, cur)
  }

  // ---------------------------------------------------------------------
  // Dependency lists

  lemma KeepNamesMembers(ds: seq<Dependency>, names: set<string>)
    ensures forall d :: d in KeepNames(ds, names) <==> d in ds && d.name !in names
  {
  }

  lemma KeepNamesUnique(ds: seq<Dependency>, names: set<string>)
    requires UniqueNames(ds)
    ensures UniqueNames(KeepNames(ds, names))
  {
    Seqs.FilterPairwise(ds, (d: Dependency) => d.name !in names,
      (x: Dependency, y: Dependency) => x.name != y.name);
  }

  lemma {:induction false} KeepNamesConcat(a: seq<Dependency>, b: seq<Dependency>, names: set<string>)
    ensures KeepNames(a + b, names) == KeepNames(a, names) + KeepNames(b, names)
  {
    Seqs.FilterConcat(a, b, (d: Dependency) => d.name !in names);
  }

  lemma KeepNamesNone(ds: seq<Dependency>, names: set<string>)
    requires names == {}
    ensures KeepNames(ds, names) == ds
  {
    Seqs.FilterKeepsAll(ds, (d: Dependency) => d.name !in names);
  }

  lemma KeepRowsNone(rows: seq<DependencyRow>, pid: int, names: set<string>)
    requires forall r :: r in rows ==> !(r.projectId == pid && r.name in names)
    ensures KeepRows(rows, pid, names) == rows
  {
    Seqs.FilterKeepsAll(rows, (r: DependencyRow) => !(r.projectId == pid && r.name in names));
  }

  lemma UniqueConcat(a: seq<Dependency>, b: seq<Dependency>)
    requires UniqueNames(a) && UniqueNames(b)
    requires forall d :: d in b ==> !HasName(a, d.name)
    ensures UniqueNames(a + b)
  {
    forall i, j | 0 <= i < j < |a + b| ensures (a + b)[i].name != (a + b)[j].name {
      if i < |a| <= j {
        assert (a + b)[j] in b;
        assert (a + b)[i] in a;
      }
    }
  }

  /** On a list with unique names, a name of the "only" output belongs to the
      one entry that carries it. */
  lemma NameInOnly(cur: seq<Dependency>, inc: seq<Dependency>, c: Dependency)
    requires UniqueNames(cur) && c in cur
    requires c.name in NameSet(OnlyIn(cur, inc))
    ensures c in OnlyIn(cur, inc)
  {
    OnlyInMembers(cur, inc);
    var c' :| c' in OnlyIn(cur, inc) && c'.name == c.name;
    LookupUnique(cur, c');
    LookupUnique(cur, c);
  }

  /** A stored entry survives reconcile exactly when some incoming entry is
      tolerance-equal to it. */
  lemma KeptMeaning(cur: seq<Dependency>, inc: seq<Dependency>, d: Dependency)
    requires UniqueNames(cur) && UniqueNames(inc)
    ensures d in KeepNames(cur, NameSet(OnlyIn(cur, inc))) <==>
      d in cur && exists e :: e in inc && EqualDep(d, e)
  {
    OnlyInMembers(cur, inc);
    UnmatchedUnique(d, inc);
    KeepNamesMembers(cur, NameSet(OnlyIn(cur, inc)));
    if d in cur && d.name in NameSet(OnlyIn(cur, inc)) {
      NameInOnly(cur, inc, d);
    }
  }

  /** The inserts UpdateProject issues never hit the unique constraint when
      both lists have unique names: every inserted name was deleted first or
      was never stored. */
  lemma ReconcileApplicable(cur: seq<Dependency>, inc: seq<Dependency>)
    requires UniqueNames(cur) && UniqueNames(inc)
    ensures UniqueNames(OnlyIn(inc, cur))
    ensures forall d :: d in OnlyIn(inc, cur) ==> !HasName(KeepNames(cur, NameSet(OnlyIn(cur, inc))), d.name)
  {
    OnlyInUnique(inc, cur);
    OnlyInMembers(inc, cur);
    var kept := KeepNames(cur, NameSet(OnlyIn(cur, inc)));
    forall d, k | d in OnlyIn(inc, cur) && k in kept ensures k.name != d.name {
      KeptMeaning(cur, inc, k);
      LookupUnique(inc, d);
      UnmatchedUnique(d, cur);
      var e :| e in inc && EqualDep(k, e);
      EqualDepMeaning(k, e);
      LookupUnique(inc, e);
    }
  }

  /** Reconcile with unique names on both sides: the result has unique names,
      exactly the incoming name set, every entry is incoming or an old entry
      tolerance-equal to an incoming one, every tolerance-equal old entry is
      kept as it was, and reconciling the same list again is a no-op. */
  lemma ReconciledMeaning(cur: seq<Dependency>, inc: seq<Dependency>)
    requires UniqueNames(cur) && UniqueNames(inc)
    ensures UniqueNames(Reconciled(cur, inc))
    ensures forall n :: HasName(Reconciled(cur, inc), n) <==> HasName(inc, n)
    ensures forall d :: d in Reconciled(cur, inc) ==>
      d in inc || (d in cur && exists e :: e in inc && EqualDep(d, e))
    ensures forall d, e :: d in cur && e in inc && EqualDep(d, e) ==> d in Reconciled(cur, inc)
    ensures Diff.Diff(Reconciled(cur, inc), inc) == ([], [])
  {
    var kept := KeepNames(cur, NameSet(OnlyIn(cur, inc)));
    var added := OnlyIn(inc, cur);
    var r := Reconciled(cur, inc);
    ReconcileApplicable(cur, inc);
    KeepNamesUnique(cur, NameSet(OnlyIn(cur, inc)));
    UniqueConcat(kept, added);
    OnlyInMembers(inc, cur);
    forall d | d in kept ensures d in cur && exists e :: e in inc && EqualDep(d, e) {
      KeptMeaning(cur, inc, d);
    }
    forall d, e | d in cur && e in inc && EqualDep(d, e) ensures d in r {
      KeptMeaning(cur, inc, d);
    }
    forall e | e in inc ensures exists d :: d in r && EqualDep(e, d) {
      EqualDepMeaning(e, e);
      UnmatchedUnique(e, cur);
      if !Unmatched(e, cur) {
        var c :| c in cur && EqualDep(e, c);
        EqualDepMeaning(e, c);
        KeptMeaning(cur, inc, c);
      }
    }
    forall d | d in r ensures exists e :: e in inc && EqualDep(d, e) {
      EqualDepMeaning(d, d);
    }
    forall n ensures HasName(r, n) <==> HasName(inc, n) {
      if HasName(r, n) {
        var d :| d in r && d.name == n;
        var e :| e in inc && EqualDep(d, e);
        EqualDepMeaning(d, e);
      }
      if HasName(inc, n) {
        var e :| e in inc && e.name == n;
        var d :| d in r && EqualDep(e, d);
        EqualDepMeaning(e, d);
      }
    }
    DiffEmptyWhenMatched(r, inc);
  }

  // ---------------------------------------------------------------------
  // Rows and the per-project lists

  lemma {:induction false} RowsOfConcat(a: seq<DependencyRow>, b: seq<DependencyRow>, q: int)
    ensures RowsOf(a + b, q) == RowsOf(a, q) + RowsOf(b, q)
  {
    if |b| == 0 {
      assert a + b == a;
    } else {
      RowsOfConcat(a, b[..|b|-1], q);
      assert (a + b)[..|a + b| - 1] == a + b[..|b|-1];
    }
  }

  lemma RowsOfSingle(r: DependencyRow, q: int)
    ensures RowsOf([r], q) == if r.projectId == q then [AsDependency(r)] else []
  {
    assert [r][..0] == [];
  }

  lemma {:induction false} RowsOfToRows(pid: int, ds: seq<Dependency>, q: int)
    ensures RowsOf(ToRows(pid, ds), q) == if q == pid then ds else []
  {
    if |ds| > 0 {
      var init, last := ds[..|ds|-1], ds[|ds|-1];
      assert ToRows(pid, ds) == ToRows(pid, init) + [ToRow(pid, last)];
      RowsOfToRows(pid, init, q);
      RowsOfConcat(ToRows(pid, init), [ToRow(pid, last)], q);
      RowsOfSingle(ToRow(pid, last), q);
      assert RowsOf(ToRows(pid, ds), q) == RowsOf(ToRows(pid, init), q) + RowsOf([ToRow(pid, last)], q);
      if q == pid {
        assert ds == init + [last];
      }
    }
  }

  lemma {:induction false} RowsOfNone(rows: seq<DependencyRow>, q: int)
    requires forall r :: r in rows ==> r.projectId != q
    ensures RowsOf(rows, q) == []
  {
    if |rows| > 0 {
      assert rows[|rows|-1] in rows;
      RowsOfNone(rows[..|rows|-1], q);
    }
  }

  lemma {:induction false} RowsOfKeep(rows: seq<DependencyRow>, pid: int, names: set<string>, q: int)
    ensures RowsOf(KeepRows(rows, pid, names), q) ==
      if q == pid then KeepNames(RowsOf(rows, pid), names) else RowsOf(rows, q)
  {
    if |rows| > 0 {
      var init := rows[..|rows|-1];
      var last := rows[|rows|-1];
      RowsOfKeep(init, pid, names, q);
      var tail := if !(last.projectId == pid && last.name in names) then [last] else [];
      KeepRowsStep(rows, pid, names);
      RowsOfConcat(KeepRows(init, pid, names), tail, q);
      assert RowsOf(rows, q) == RowsOf(init, q) + RowsOf([last], q);
      RowsOfSingle(last, q);
      if q == pid {
        var own := if last.projectId == pid then [AsDependency(last)] else [];
        assert RowsOf(rows, pid) == RowsOf(init, pid) + own;
        KeepNamesConcat(RowsOf(init, pid), own, names);
        KeepNamesSingle(own, names);
      } else {
        assert RowsOf(tail, q) == RowsOf([last], q);
      }
    }
  }

  /** The row filter, one row at a time from the back. */
  lemma KeepRowsStep(rows: seq<DependencyRow>, pid: int, names: set<string>)
    requires |rows| > 0
    ensures var last := rows[|rows|-1];
      KeepRows(rows, pid, names) ==
        KeepRows(rows[..|rows|-1], pid, names) + if !(last.projectId == pid && last.name in names) then [last] else []
  {
  }

  lemma KeepNamesSingle(own: seq<Dependency>, names: set<string>)
    requires |own| <= 1
    ensures KeepNames(own, names) == if |own| == 1 && own[0].name !in names then own else []
  {
    if |own| == 1 {
      assert own[..0] == [];
    }
  }

  lemma {:induction false} RowsOfDrop(rows: seq<DependencyRow>, pid: int, q: int)
    ensures RowsOf(DropProjectRows(rows, pid), q) == if q == pid then [] else RowsOf(rows, q)
  {
    if |rows| > 0 {
      var init := rows[..|rows|-1];
      var last := rows[|rows|-1];
      RowsOfDrop(init, pid, q);
      var tail := if last.projectId != pid then [last] else [];
      assert DropProjectRows(rows, pid) == DropProjectRows(init, pid) + tail;
      RowsOfConcat(DropProjectRows(init, pid), tail, q);
      RowsOfSingle(last, q);
    }
  }

  lemma {:induction false} HasRowRowsOf(rows: seq<DependencyRow>, pid: int, n: string)
    ensures HasRow(rows, pid, n) <==> HasName(RowsOf(rows, pid), n)
  {
    if |rows| > 0 {
      var init := rows[..|rows|-1];
      var last := rows[|rows|-1];
      HasRowRowsOf(init, pid, n);
      assert rows == init + [last];
      if HasName(RowsOf(rows, pid), n) && !HasName(RowsOf(init, pid), n) {
        assert last.projectId == pid && last.name == n;
      }
      if HasName(RowsOf(init, pid), n) {
        var d :| d in RowsOf(init, pid) && d.name == n;
        assert d in RowsOf(rows, pid);
      }
      if last.projectId == pid && last.name == n {
        assert AsDependency(last) in RowsOf(rows, pid);
      }
    }
  }

  // ---------------------------------------------------------------------
  // Project rows

  /** Under the unique constraints the lookup finds every stored row. */
  lemma ProjectIdAt(ps: seq<ProjectRow>, p: ProjectRow)
    requires ProjectsUnique(ps) && p in ps
    ensures ProjectId(ps, p.name, p.version) == Some(p.id)
  {
    var r := ProjectId(ps, p.name, p.version);
    var q :| q in ps && q.name == p.name && q.version == p.version && q.id == r.value;
    var i :| 0 <= i < |ps| && ps[i] == p;
    var j :| 0 <= j < |ps| && ps[j] == q;
    assert i == j;
  }

  /** Distinct (name, version) pairs have distinct ids. */
  lemma ProjectIdKeys(ps: seq<ProjectRow>, n: string, v: string, n': string, v': string)
    requires ProjectsUnique(ps)
    requires ProjectId(ps, n, v).Some? && ProjectId(ps, n', v') == ProjectId(ps, n, v)
    ensures n == n' && v == v'
  {
    var p :| p in ps && p.name == n && p.version == v && p.id == ProjectId(ps, n, v).value;
    var p' :| p' in ps && p'.name == n' && p'.version == v' && p'.id == ProjectId(ps, n, v).value;
    var i :| 0 <= i < |ps| && ps[i] == p;
    var j :| 0 <= j < |ps| && ps[j] == p';
    assert i == j;
  }

  lemma {:induction false} ProjectIdAppend(ps: seq<ProjectRow>, row: ProjectRow, n: string, v: string)
    ensures ProjectId(ps + [row], n, v) ==
      if ProjectId(ps, n, v).Some? then ProjectId(ps, n, v)
      else if row.name == n && row.version == v then Some(row.id) else None
  {
    if |ps| > 0 {
      assert (ps + [row])[1..] == ps[1..] + [row];
      ProjectIdAppend(ps[1..], row, n, v);
    }
  }

  lemma {:induction false} ProjectIdTouch(ps: seq<ProjectRow>, id: int, t: int, n: string, v: string)
    ensures ProjectId(Touch(ps, id, t), n, v) == ProjectId(ps, n, v)
  {
    if |ps| > 0 {
      assert Touch(ps, id, t)[1..] == Touch(ps[1..], id, t);
      ProjectIdTouch(ps[1..], id, t, n, v);
    }
  }

  lemma TouchSets(ps: seq<ProjectRow>, id: int, t: int)
    ensures forall p :: p in Touch(ps, id, t) && p.id == id ==> p.updatedAt == t
  {
    forall p | p in Touch(ps, id, t) && p.id == id ensures p.updatedAt == t {
      var i :| 0 <= i < |ps| && Touch(ps, id, t)[i] == p;
    }
  }

  lemma TouchNoop(ps: seq<ProjectRow>, id: int, t: int)
    requires forall p :: p in ps && p.id == id ==> p.updatedAt == t
    ensures Touch(ps, id, t) == ps
  {
    forall i | 0 <= i < |ps| ensures Touch(ps, id, t)[i] == ps[i] {
      assert ps[i] in ps;
    }
  }

  lemma ListProjectsMembers(st: Store)
    ensures forall p :: p in ListProjects(st) <==> exists row :: row in st.projects && AsProject(row) == p
  {
    forall p | p in ListProjects(st) ensures exists row :: row in st.projects && AsProject(row) == p {
      var i :| 0 <= i < |ListProjects(st)| && ListProjects(st)[i] == p;
      assert st.projects[i] in st.projects;
    }
    forall row | row in st.projects ensures AsProject(row) in ListProjects(st) {
      var i :| 0 <= i < |st.projects| && st.projects[i] == row;
      assert ListProjects(st)[i] == AsProject(row);
    }
  }

  // ---------------------------------------------------------------------
  // StoreDependencies

  lemma StoreNewShape(st: Store, rec: ProjectDependencyRecord)
    requires Valid(st)
    requires ProjectId(st.projects, rec.project.name, rec.project.version).None?
    requires UniqueNames(rec.dependencies)
    ensures StoreDependencies(st, rec) == Ok(Store(
      st.projects + [ProjectRow(st.nextId, rec.project.name, rec.project.version, rec.project.updatedAt)],
      st.dependencies + ToRows(st.nextId, rec.dependencies), st.nextId + 1))
  {
    FreshIdHasNoRows(st);
  }

  /** Storing a new (name, version) pair with unique dependency names adds
      one project carrying the record's timestamp and lists exactly the
      record's dependencies for it, in name order; every other pair,
      including other versions of the same name, lists what it listed
      before. */
  lemma StoreNewProject(st: Store, rec: ProjectDependencyRecord)
    requires Valid(st)
    requires ProjectId(st.projects, rec.project.name, rec.project.version).None?
    requires UniqueNames(rec.dependencies)
    ensures StoreDependencies(st, rec).Ok?
    ensures ListProjects(StoreDependencies(st, rec).value) == ListProjects(st) + [rec.project]
    ensures ListProjectDependencies(StoreDependencies(st, rec).value, rec.project.name, rec.project.version)
      == Ok(Order.SortByName(rec.dependencies))
    ensures forall n, v :: (n, v) != (rec.project.name, rec.project.version) ==>
      ListProjectDependencies(StoreDependencies(st, rec).value, n, v) == ListProjectDependencies(st, n, v)
  {
    StoreNewShape(st, rec);
    NewProjectListings(st, rec, StoreDependencies(st, rec).value);
  }

  lemma NewProjectListings(st: Store, rec: ProjectDependencyRecord, st': Store)
    requires Valid(st)
    requires ProjectId(st.projects, rec.project.name, rec.project.version).None?
    requires st' == Store(
      st.projects + [ProjectRow(st.nextId, rec.project.name, rec.project.version, rec.project.updatedAt)],
      st.dependencies + ToRows(st.nextId, rec.dependencies), st.nextId + 1)
    ensures ListProjects(st') == ListProjects(st) + [rec.project]
    ensures ListProjectDependencies(st', rec.project.name, rec.project.version) == Ok(Order.SortByName(rec.dependencies))
    ensures forall n, v :: (n, v) != (rec.project.name, rec.project.version) ==>
      ListProjectDependencies(st', n, v) == ListProjectDependencies(st, n, v)
  {
    var id := st.nextId;
    var row := ProjectRow(id, rec.project.name, rec.project.version, rec.project.updatedAt);
    assert ListProjects(st') == ListProjects(st) + [rec.project];
    FreshIdHasNoRows(st);
    forall w | w in st.dependencies ensures w.projectId != id {
      assert !HasRow(st.dependencies, id, w.name);
    }
    NewProjectRows(st.dependencies, id, rec.dependencies);
    ProjectIdAppend(st.projects, row, rec.project.name, rec.project.version);
    forall n, v | (n, v) != (rec.project.name, rec.project.version)
      ensures ListProjectDependencies(st', n, v) == ListProjectDependencies(st, n, v)
    {
      ProjectIdAppend(st.projects, row, n, v);
      if ProjectId(st.projects, n, v).Some? {
        assert ProjectId(st.projects, n, v).value < id;
      }
    }
  }

  /** Appending the rows of a fresh id: that id lists exactly the appended
      entries and every older id lists what it did. */
  lemma NewProjectRows(rows: seq<DependencyRow>, id: int, ds: seq<Dependency>)
    requires forall w :: w in rows ==> w.projectId != id
    ensures RowsOf(rows + ToRows(id, ds), id) == ds
    ensures forall q :: q != id ==> RowsOf(rows + ToRows(id, ds), q) == RowsOf(rows, q)
  {
    RowsOfNone(rows, id);
    RowsOfConcat(rows, ToRows(id, ds), id);
    RowsOfToRows(id, ds, id);
    forall q | q != id ensures RowsOf(rows + ToRows(id, ds), q) == RowsOf(rows, q) {
      RowsOfConcat(rows, ToRows(id, ds), q);
      RowsOfToRows(id, ds, q);
    }
  }

  // ---------------------------------------------------------------------
  // Read order

  /** UpdateProject reads the stored rows with the same unordered query as
      ListProjectDependencies. With unique stored names the order they come
      back in does not matter: the inserts, the deleted names and the
      no-change test are the same for any permutation. */
  lemma UpdateReadOrder(cur: seq<Dependency>, cur': seq<Dependency>, inc: seq<Dependency>)
    requires UniqueNames(cur) && multiset(cur) == multiset(cur')
    ensures OnlyIn(inc, cur) == OnlyIn(inc, cur')
    ensures NameSet(OnlyIn(cur, inc)) == NameSet(OnlyIn(cur', inc))
    ensures |OnlyIn(cur, inc)| == |OnlyIn(cur', inc)|
  {
    OnlyInPermuteOther(inc, cur, cur');
    OnlyInPermuteSelf(cur, cur', inc);
    assert forall d :: d in OnlyIn(cur, inc) <==> d in OnlyIn(cur', inc) by {
      forall d ensures d in OnlyIn(cur, inc) <==> d in OnlyIn(cur', inc) {
        assert d in OnlyIn(cur, inc) <==> d in multiset(OnlyIn(cur, inc));
        assert d in OnlyIn(cur', inc) <==> d in multiset(OnlyIn(cur', inc));
      }
    }
    assert |multiset(OnlyIn(cur, inc))| == |multiset(OnlyIn(cur', inc))|;
  }

  /** Reconciling a permutation of the stored list lists the same entries
      once read back in name order. */
  lemma ReconciledReordered(cur: seq<Dependency>, cur': seq<Dependency>, inc: seq<Dependency>)
    requires UniqueNames(cur) && UniqueNames(inc) && multiset(cur) == multiset(cur')
    ensures Order.SortByName(Reconciled(cur, inc)) == Order.SortByName(Reconciled(cur', inc))
  {
    UniquePermutation(cur, cur');
    ReconciledSameMembers(cur, cur', inc);
    ReconciledMeaning(cur, inc);
    ReconciledMeaning(cur', inc);
    SortedListing(Reconciled(cur, inc));
    SortedListing(Reconciled(cur', inc));
    Order.NamesSortedUnique(Order.SortByName(Reconciled(cur, inc)), Order.SortByName(Reconciled(cur', inc)));
  }

  /** Sorting a unique-named list keeps its names unique and its members. */
  lemma SortedListing(ds: seq<Dependency>)
    requires UniqueNames(ds)
    ensures UniqueNames(Order.SortByName(ds))
    ensures forall d :: d in Order.SortByName(ds) <==> d in ds
  {
    var r := Order.SortByName(ds);
    UniquePermutation(ds, r);
    forall d ensures d in r <==> d in ds {
      assert d in r <==> d in multiset(r);
      assert d in ds <==> d in multiset(ds);
    }
  }

  lemma ReconciledSameMembers(cur: seq<Dependency>, cur': seq<Dependency>, inc: seq<Dependency>)
    requires UniqueNames(cur) && multiset(cur) == multiset(cur')
    ensures forall d :: d in Reconciled(cur, inc) <==> d in Reconciled(cur', inc)
  {
    UpdateReadOrder(cur, cur', inc);
    var names := NameSet(OnlyIn(cur, inc));
    KeepNamesMembers(cur, names);
    KeepNamesMembers(cur', names);
    forall d ensures d in cur <==> d in cur' {
      assert d in cur <==> d in multiset(cur);
      assert d in cur' <==> d in multiset(cur');
    }
  }

  /** Deleting names and then reading in name order is reading in name
      order and then deleting the names. */
  lemma SortKeepNames(cur: seq<Dependency>, names: set<string>)
    requires UniqueNames(cur)
    ensures Order.SortByName(KeepNames(cur, names)) == KeepNames(Order.SortByName(cur), names)
  {
    var sorted := Order.SortByName(cur);
    var r := Order.SortByName(KeepNames(cur, names));
    var t := KeepNames(sorted, names);
    UniquePermutation(cur, sorted);
    KeepNamesUnique(cur, names);
    KeepNamesUnique(sorted, names);
    UniquePermutation(KeepNames(cur, names), r);
    KeepNamesMembers(cur, names);
    KeepNamesMembers(sorted, names);
    assert forall i, j :: 0 <= i < j < |sorted| ==>
      (((a: Dependency, b: Dependency) => !Order.StrLess(b.name, a.name))(sorted[i], sorted[j]));
    Seqs.FilterPairwise(sorted, (d: Dependency) => d.name !in names,
                        (a: Dependency, b: Dependency) => !Order.StrLess(b.name, a.name));
    assert forall d :: d in r <==> d in t by {
      forall d ensures d in r <==> d in t {
        assert d in r <==> d in multiset(KeepNames(cur, names));
        assert d in sorted <==> d in multiset(cur);
      }
    }
    Order.NamesSortedUnique(r, t);
  }

  /** Reconciling an existing project with a list of unique names succeeds;
      the project then lists `Reconciled(old list, incoming)` in name
      order, its timestamp
      is the record's, and nothing else any listing shows changes. */
  lemma ReconcileExisting(st: Store, rec: ProjectDependencyRecord)
    requires Valid(st)
    requires ProjectId(st.projects, rec.project.name, rec.project.version).Some?
    requires UniqueNames(rec.dependencies)
    ensures UpdateProject(st, rec).Ok?
    ensures forall n, v :: ProjectId(UpdateProject(st, rec).value.projects, n, v) == ProjectId(st.projects, n, v)
    ensures ListProjectDependencies(UpdateProject(st, rec).value, rec.project.name, rec.project.version)
      == Ok(Order.SortByName(Reconciled(ListProjectDependencies(st, rec.project.name, rec.project.version).value,
                                        rec.dependencies)))
    ensures forall n, v :: (n, v) != (rec.project.name, rec.project.version) ==>
      ListProjectDependencies(UpdateProject(st, rec).value, n, v) == ListProjectDependencies(st, n, v)
    ensures UpdateProject(st, rec).value.projects ==
      Touch(st.projects, ProjectId(st.projects, rec.project.name, rec.project.version).value, rec.project.updatedAt)
  {
    var pid := ProjectId(st.projects, rec.project.name, rec.project.version).value;
    ReconcileRows(st, rec, pid);
    RowsOfUnique(st.dependencies, pid);
    ReconciledReordered(RowsOf(st.dependencies, pid), ListProjectDependencies(st, rec.project.name, rec.project.version).value,
                        rec.dependencies);
    var st' := UpdateProject(st, rec).value;
    forall n, v ensures ProjectId(st'.projects, n, v) == ProjectId(st.projects, n, v) {
      ProjectIdTouch(st.projects, pid, rec.project.updatedAt, n, v);
    }
    forall n, v | (n, v) != (rec.project.name, rec.project.version)
      ensures ListProjectDependencies(st', n, v) == ListProjectDependencies(st, n, v)
    {
      if ProjectId(st.projects, n, v).Some? {
        if ProjectId(st.projects, n, v) == Some(pid) {
          ProjectIdKeys(st.projects, rec.project.name, rec.project.version, n, v);
        }
      }
    }
  }

  /** The rows after reconciling an existing project: its own list becomes
      `Reconciled`, every other project's rows are unchanged. */
  lemma ReconcileRows(st: Store, rec: ProjectDependencyRecord, pid: int)
    requires Valid(st)
    requires ProjectId(st.projects, rec.project.name, rec.project.version) == Some(pid)
    requires UniqueNames(rec.dependencies)
    ensures UpdateProject(st, rec).Ok?
    ensures UpdateProject(st, rec).value.projects == Touch(st.projects, pid, rec.project.updatedAt)
    ensures RowsOf(UpdateProject(st, rec).value.dependencies, pid) ==
      Reconciled(RowsOf(st.dependencies, pid), rec.dependencies)
    ensures forall q :: q != pid ==>
      RowsOf(UpdateProject(st, rec).value.dependencies, q) == RowsOf(st.dependencies, q)
  {
    var cur := RowsOf(st.dependencies, pid);
    var inc := rec.dependencies;
    RowsOfUnique(st.dependencies, pid);
    var (toDel, toAdd) := Diff.Diff(cur, inc);
    var names := NameSet(toDel);
    ReconcileApplicable(cur, inc);
    var kept := KeepRows(st.dependencies, pid, names);
    RowsOfKeep(st.dependencies, pid, names, pid);
    forall d | d in toAdd ensures !HasRow(kept, pid, d.name) {
      HasRowRowsOf(kept, pid, d.name);
    }
    assert UpdateProject(st, rec).Ok?;
    var st' := UpdateProject(st, rec).value;
    if |toAdd| == 0 && |toDel| == 0 {
      assert names == {};
      KeepNamesNone(cur, names);
      assert st'.dependencies == st.dependencies;
    } else {
      assert st'.dependencies == kept + ToRows(pid, toAdd);
      ReplaceRowsListing(st.dependencies, pid, names, toAdd);
    }
  }

  /** Deleting names from one project and appending new rows for it changes
      only that project's listing. */
  lemma ReplaceRowsListing(rows: seq<DependencyRow>, pid: int, names: set<string>, add: seq<Dependency>)
    ensures RowsOf(KeepRows(rows, pid, names) + ToRows(pid, add), pid) ==
      KeepNames(RowsOf(rows, pid), names) + add
    ensures forall q :: q != pid ==> RowsOf(KeepRows(rows, pid, names) + ToRows(pid, add), q) == RowsOf(rows, q)
  {
    var kept := KeepRows(rows, pid, names);
    RowsOfConcat(kept, ToRows(pid, add), pid);
    RowsOfToRows(pid, add, pid);
    RowsOfKeep(rows, pid, names, pid);
    forall q | q != pid ensures RowsOf(kept + ToRows(pid, add), q) == RowsOf(rows, q) {
      RowsOfConcat(kept, ToRows(pid, add), q);
      RowsOfToRows(pid, add, q);
      RowsOfKeep(rows, pid, names, q);
    }
  }

  /** Storing a record that is already stored as it is changes nothing. */
  lemma StoreAgainNoop(st: Store, rec: ProjectDependencyRecord, pid: int)
    requires ProjectId(st.projects, rec.project.name, rec.project.version) == Some(pid)
    requires Diff.Diff(RowsOf(st.dependencies, pid), rec.dependencies) == ([], [])
    requires forall p :: p in st.projects && p.id == pid ==> p.updatedAt == rec.project.updatedAt
    ensures StoreDependencies(st, rec) == Ok(st)
  {
    TouchNoop(st.projects, pid, rec.project.updatedAt);
  }

  /** An existing version whose stored list diffs empty against the
      incoming one: the store changes only in that project's timestamp, so
      every listing reads as before and the project list differs only in
      that version's `updatedAt`. */
  lemma EmptyDiffOnlyTouches(st: Store, rec: ProjectDependencyRecord, pid: int)
    requires ProjectId(st.projects, rec.project.name, rec.project.version) == Some(pid)
    requires Diff.Diff(RowsOf(st.dependencies, pid), rec.dependencies) == ([], [])
    ensures StoreDependencies(st, rec) == Ok(st.(projects := Touch(st.projects, pid, rec.project.updatedAt)))
    ensures forall n, v ::
      ListProjectDependencies(StoreDependencies(st, rec).value, n, v) == ListProjectDependencies(st, n, v)
    ensures |ListProjects(StoreDependencies(st, rec).value)| == |ListProjects(st)|
    ensures forall i :: 0 <= i < |ListProjects(st)| ==>
      ListProjects(StoreDependencies(st, rec).value)[i] ==
        (if st.projects[i].id == pid then ListProjects(st)[i].(updatedAt := rec.project.updatedAt)
         else ListProjects(st)[i])
  {
    var st' := StoreDependencies(st, rec).value;
    forall n, v ensures ListProjectDependencies(st', n, v) == ListProjectDependencies(st, n, v) {
      ProjectIdTouch(st.projects, pid, rec.project.updatedAt, n, v);
    }
  }

  /** Storing the same record twice: with unique names the first store
      succeeds and the second leaves the whole store as the first left it. */
  lemma StoreIdempotent(st: Store, rec: ProjectDependencyRecord)
    requires Valid(st) && UniqueNames(rec.dependencies)
    ensures StoreDependencies(st, rec).Ok?
    ensures StoreDependencies(StoreDependencies(st, rec).value, rec) == StoreDependencies(st, rec)
  {
    if ProjectId(st.projects, rec.project.name, rec.project.version).None? {
      StoreNewAgain(st, rec);
    } else {
      StoreExistingAgain(st, rec, ProjectId(st.projects, rec.project.name, rec.project.version).value);
    }
  }

  lemma StoreNewAgain(st: Store, rec: ProjectDependencyRecord)
    requires Valid(st) && UniqueNames(rec.dependencies)
    requires ProjectId(st.projects, rec.project.name, rec.project.version).None?
    ensures StoreDependencies(st, rec).Ok?
    ensures StoreDependencies(StoreDependencies(st, rec).value, rec) == StoreDependencies(st, rec)
  {
    StoreNewShape(st, rec);
    FreshIdHasNoRows(st);
    forall w | w in st.dependencies ensures w.projectId != st.nextId {
      assert !HasRow(st.dependencies, st.nextId, w.name);
    }
    assert forall p :: p in st.projects ==> p.id != st.nextId;
    StoreFreshAgain(st, rec);
  }

  /** A project stored under a fresh id is stored again as it is. */
  lemma StoreFreshAgain(st: Store, rec: ProjectDependencyRecord)
    requires UniqueNames(rec.dependencies)
    requires ProjectId(st.projects, rec.project.name, rec.project.version).None?
    requires forall p :: p in st.projects ==> p.id != st.nextId
    requires forall w :: w in st.dependencies ==> w.projectId != st.nextId
    ensures var id := st.nextId;
      var st1 := Store(st.projects + [ProjectRow(id, rec.project.name, rec.project.version, rec.project.updatedAt)],
                       st.dependencies + ToRows(id, rec.dependencies), id + 1);
      StoreDependencies(st1, rec) == Ok(st1)
  {
    var t := rec.project.updatedAt;
    var id := st.nextId;
    var row := ProjectRow(id, rec.project.name, rec.project.version, t);
    var st1 := Store(st.projects + [row], st.dependencies + ToRows(id, rec.dependencies), id + 1);
    ProjectIdAppend(st.projects, row, rec.project.name, rec.project.version);
    NewProjectRows(st.dependencies, id, rec.dependencies);
    DiffSelf(rec.dependencies);
    forall p | p in st1.projects && p.id == id ensures p.updatedAt == t {
      assert p in st.projects || p == row;
    }
    StoreAgainNoop(st1, rec, id);
  }

  lemma StoreExistingAgain(st: Store, rec: ProjectDependencyRecord, pid: int)
    requires Valid(st) && UniqueNames(rec.dependencies)
    requires ProjectId(st.projects, rec.project.name, rec.project.version) == Some(pid)
    ensures StoreDependencies(st, rec).Ok?
    ensures StoreDependencies(StoreDependencies(st, rec).value, rec) == StoreDependencies(st, rec)
  {
    var t := rec.project.updatedAt;
    ReconcileRows(st, rec, pid);
    assert StoreDependencies(st, rec) == UpdateProject(st, rec);
    var st1 := UpdateProject(st, rec).value;
    var cur := RowsOf(st.dependencies, pid);
    RowsOfUnique(st.dependencies, pid);
    ReconciledMeaning(cur, rec.dependencies);
    ProjectIdTouch(st.projects, pid, t, rec.project.name, rec.project.version);
    TouchSets(st.projects, pid, t);
    StoreAgainNoop(st1, rec, pid);
  }

  // ---------------------------------------------------------------------
  // DeleteProject

  /** Deleting an existing project: its pair is no longer found, it leaves
      the project list, and every other pair lists what it listed before. */
  lemma DeleteProjectEffect(st: Store, name: string, version: string)
    requires Valid(st) && ProjectId(st.projects, name, version).Some?
    ensures DeleteProject(st, name, version).Ok?
    ensures ListProjectDependencies(DeleteProject(st, name, version).value, name, version).Err?
    ensures forall n, v :: (n, v) != (name, version) ==>
      ListProjectDependencies(DeleteProject(st, name, version).value, n, v) == ListProjectDependencies(st, n, v)
    ensures forall p :: p in ListProjects(DeleteProject(st, name, version).value) <==>
      p in ListProjects(st) && (p.name, p.version) != (name, version)
  {
    var pid := ProjectId(st.projects, name, version).value;
    var st' := DeleteProject(st, name, version).value;
    assert st'.projects == RemoveProject(st.projects, pid);
    assert st'.dependencies == DropProjectRows(st.dependencies, pid);
    forall row | row in st.projects ensures row.id == pid <==> (row.name, row.version) == (name, version) {
      ProjectIdAt(st.projects, row);
      if row.id == pid {
        ProjectIdKeys(st.projects, name, version, row.name, row.version);
      }
    }
    assert ProjectId(st'.projects, name, version).None?;
    forall n, v | (n, v) != (name, version)
      ensures ProjectId(st'.projects, n, v) == ProjectId(st.projects, n, v)
    {
      if ProjectId(st.projects, n, v).Some? {
        var p :| p in st.projects && p.name == n && p.version == v && p.id == ProjectId(st.projects, n, v).value;
        ProjectIdAt(st'.projects, p);
      }
    }
    forall n, v | (n, v) != (name, version)
      ensures ListProjectDependencies(st', n, v) == ListProjectDependencies(st, n, v)
    {
      if ProjectId(st.projects, n, v).Some? {
        var q := ProjectId(st.projects, n, v).value;
        if q == pid {
          ProjectIdKeys(st.projects, name, version, n, v);
        }
        RowsOfDrop(st.dependencies, pid, q);
      }
    }
    ListProjectsMembers(st);
    ListProjectsMembers(st');
  }

  // ---------------------------------------------------------------------
  // Single-dependency edits

  /** Deleting one dependency drops exactly that name from the project's
      list and leaves every other pair's list as it was. */
  lemma DeleteDependencyEffect(st: Store, name: string, version: string, depName: string)
    requires Valid(st) && DeleteDependency(st, name, version, depName).Ok?
    ensures ListProjectDependencies(DeleteDependency(st, name, version, depName).value, name, version)
      == Ok(KeepNames(ListProjectDependencies(st, name, version).value, {depName}))
    ensures forall n, v :: (n, v) != (name, version) ==>
      ListProjectDependencies(DeleteDependency(st, name, version, depName).value, n, v)
        == ListProjectDependencies(st, n, v)
  {
    var pid := ProjectId(st.projects, name, version).value;
    RowsOfKeep(st.dependencies, pid, {depName}, pid);
    RowsOfUnique(st.dependencies, pid);
    SortKeepNames(RowsOf(st.dependencies, pid), {depName});
    forall n, v | (n, v) != (name, version)
      ensures ListProjectDependencies(DeleteDependency(st, name, version, depName).value, n, v)
        == ListProjectDependencies(st, n, v)
    {
      if ProjectId(st.projects, n, v).Some? {
        var q := ProjectId(st.projects, n, v).value;
        if q == pid {
          ProjectIdKeys(st.projects, name, version, n, v);
        }
        RowsOfKeep(st.dependencies, pid, {depName}, q);
      }
    }
  }

  /** Deleting the dependency just added restores the store. */
  lemma AddThenDelete(st: Store, name: string, version: string, dep: Dependency)
    requires AddDependency(st, name, version, dep).Ok?
    ensures DeleteDependency(AddDependency(st, name, version, dep).value, name, version, dep.name) == Ok(st)
  {
    var pid := ProjectId(st.projects, name, version).value;
    var row := ToRow(pid, dep);
    var rows := st.dependencies + [row];
    assert row in rows;
    assert rows[..|rows|-1] == st.dependencies;
    KeepRowsNone(st.dependencies, pid, {dep.name});
    assert KeepRows(rows, pid, {dep.name}) == st.dependencies;
  }

  /** Updating a dependency back to the values its row held undoes the update. */
  lemma UpdateThenRestore(st: Store, name: string, version: string, dep: Dependency, w: DependencyRow)
    requires Valid(st)
    requires ProjectId(st.projects, name, version).Some?
    requires w in st.dependencies && w.projectId == ProjectId(st.projects, name, version).value && w.name == dep.name
    ensures UpdateDependency(st, name, version, dep).Ok?
    ensures UpdateDependency(UpdateDependency(st, name, version, dep).value, name, version, AsDependency(w)) == Ok(st)
  {
    var pid := w.projectId;
    var st1 := UpdateDependency(st, name, version, dep).value;
    assert HasRow(st1.dependencies, pid, dep.name) by {
      var i :| 0 <= i < |st.dependencies| && st.dependencies[i] == w;
      assert st1.dependencies[i] in st1.dependencies;
    }
    var st2 := UpdateDependency(st1, name, version, AsDependency(w)).value;
    assert |st2.dependencies| == |st.dependencies|;
    forall i | 0 <= i < |st.dependencies| ensures st2.dependencies[i] == st.dependencies[i] {
      var r := st.dependencies[i];
      assert st1.dependencies[i] == Updated(r, pid, dep);
      assert st2.dependencies[i] == Updated(st1.dependencies[i], pid, AsDependency(w));
      if r.projectId == pid && r.name == dep.name {
        var k :| 0 <= k < |st.dependencies| && st.dependencies[k] == w;
        assert k == i;
      }
    }
    assert st2.dependencies == st.dependencies;
  }

  /** The source's AddDependency reports an existing name as a wrapped
      constraint violation that `errors.Is(err, ErrDependencyAlreadyExists)`
      rejects, where the corrected AddDependency reports exactly that
      sentinel. */
  lemma AddDuplicateAsWritten(st: Store, name: string, version: string, dep: Dependency)
    requires ProjectId(st.projects, name, version).Some?
    requires HasRow(st.dependencies, ProjectId(st.projects, name, version).value, dep.name)
    ensures AddDependencyAsWritten(st, name, version, dep).Err?
    ensures Is(AddDependencyAsWritten(st, name, version, dep).error, UniqueViolation(dep.name))
    ensures !Is(AddDependencyAsWritten(st, name, version, dep).error, DependencyAlreadyExists)
    ensures AddDependency(st, name, version, dep) == Err(DependencyAlreadyExists)
  {
  }

  /** A concrete store on which the two disagree. */
  lemma AddDuplicateExample()
    ensures var st := Store([ProjectRow(1, "react", "18.2.0", 0)], [DependencyRow(1, "loose-envify", 7.5, 0)], 2);
      var dep := Dependency(7.5, "loose-envify", 0);
      Valid(st) &&
      AddDependencyAsWritten(st, "react", "18.2.0", dep)
        == Err(Wrapped("INSERT dependency", UniqueViolation("loose-envify"))) &&
      AddDependency(st, "react", "18.2.0", dep) == Err(DependencyAlreadyExists)
  {
    var st := Store([ProjectRow(1, "react", "18.2.0", 0)], [DependencyRow(1, "loose-envify", 7.5, 0)], 2);
    assert st.dependencies[0] in st.dependencies;
  }
}
